=== FILE: README.md ===
# RedisStore client core, modelled in Dafny

`RedisStore.py` lets Python code treat values kept in a Redis server like
ordinary Python objects. It provides handles for strings, integers,
booleans, pickled objects, lists, sets, sorted sets, hashes, whole pickled
dictionaries, nested "key dictionaries" spread over several keys, and a
queue-based lock. This project models the client-side logic of those
handles. The server is an abstract store: a map from key strings to a
remote value and a time to live. The value is a string, list, set, sorted
set (member → score) or hash. Store commands follow Redis semantics:

- RPUSH appends at the tail and LPOP takes the head.
- SADD is idempotent.
- LREM removes every occurrence.
- EXPIRE with a non-positive time deletes the key.
- A command on a key of another kind is a wrong-type error.
- An aggregate that becomes empty disappears.

Modules, one file each, following the program's structure:

| file | module | what it holds |
|---|---|---|
| `outcomes.dfy` | `Outcomes` | `Option`, `Result` and the error kinds |
| `text.dfy` | `Text` | Python's `str.replace`, `listReplace`, `isdigit`, decimal integer text |
| `keys.dfy` | `Keys` | `inKey` / `outKey` escaping through `KEY_REPLACEMENTS` |
| `codec.dfy` | `Codec` | the `"<pckl:>"` single-value codec and the `"<vpckl:>"` snapshot codec |
| `store.dfy` | `Store` | the abstract store and the Redis commands the client uses |
| `expiration.dfy` | `Expiration` | the client-tracked expiration of `RedisIterable` |
| `handles.dfy` | `Handles` | the `RedisItem` construction protocol, type checks, scalar handles |
| `lists.dfy` | `Lists` | `RedisList` |
| `sets.dfy` | `Sets` | `RedisSet` |
| `sortedsets.dfy` | `SortedSets` | `RedisSortedSet` |
| `hashes.dfy` | `Hashes` | `RedisDict` |
| `pickleddict.dfy` | `PickledDicts` | `RedisPickledDict` |
| `keydict.dfy` | `KeyDicts` | `RedisKeyDict`: its classifiers, `__getitem__`, `__setitem__`'s choice of handle, `keys()`, `has_key` |
| `lock.dfy` | `Locks` | `RedisLock` as a state machine over (queue, last acquisition time) |

The modelled code is parameterised as follows:

- `pickle` is a pair of functions, `Pickler(dumps, loads)`. `RoundTrips(p)` states `loads(dumps(v)) == v`.
- The clock is the parameter `now`, in whole seconds.
- The truth of a cached key-dictionary handle reads the store through that handle, so it is a boolean parameter.
- What other processes do to a lock queue while a caller polls is the sequence of queues its polls read.

Behaviours of the code a reader may not expect, which the model keeps:

- The lock's staleness check looks only at the last acquisition time. It empties the queue even when the queue is already empty.
- `release` removes every occurrence of the caller's token with LREM. It does not pop the head.
- The key round trip `outKey(inKey(k)) == k` holds only for keys without `%`. `Keys.PercentKeyDoesNotRoundTrip` shows `"%20"` coming back as `" "`.
- `RedisIterable.__init__` reads the TTL snapshot from the key before it is escaped.
- The key-dictionary payload classifier tests `isdigit`. A negative integer child is therefore read back as a string handle (`KeyDicts.NegativeIntegerReloadsAsString`).
- The integer handle's type check (`isdigit`), `RedisKeyDict.has_key` and `RedisKeyDict.get` are modelled as written, and every handle construction uses the check as written. Their corrected forms (`Handles.TypeOkCorrected`, `KeyDicts.HasChild`, `KeyDicts.GetCorrected`) stand beside them and are used only by the lemmas about the corrections (see "## Findings").

## Model

| member | source | states |
|---|---|---|
| Keys.InKey | RedisStore.py:252-255 | the escaped key holds no reserved character, and a key without one is unchanged |
| Keys.OutKey | RedisStore.py:257-260 | unescaping neither adds nor removes a `.`, and leaves a key without `%` unchanged |
| Keys.InKeyUnreserved | RedisStore.py:252-255 | an escaped key contains none of space, `(`, `)`, `[`, `]` |
| Keys.InKeyFixesUnreserved | RedisStore.py:252-255 | escaping leaves a key without reserved characters unchanged, so escaping is idempotent |
| Keys.OutKeyInKey | RedisStore.py:252-260 | `outKey(inKey(k)) == k` for every key without `%` |
| Keys.PercentKeyDoesNotRoundTrip | RedisStore.py:252-260 | the key `"%20"` is escaped to itself and unescaped to `" "`, so the round trip needs the no-`%` condition |
| Keys.OutKeyKeepsDots | RedisStore.py:258-260 | unescaping neither adds nor removes a `.`, the nested-map separator |
| Codec.Encode | RedisStore.py:262-266 | a string is stored as it is; any other value is the tag `"<pckl:>"` followed by its serialization |
| Codec.Decode | RedisStore.py:268-273 | a payload without the tag is the string itself; a tagged payload is deserialized from what follows the 7-character tag |
| Codec.DecodeEncode | RedisStore.py:262-273 | decoding undoes encoding for every non-string and every string not starting with the tag |
| Codec.EncodeInjective | RedisStore.py:262-273 | two such values never share a payload |
| Codec.TaggedStringIsMisread | RedisStore.py:262-273 | a string that begins with the tag is stored verbatim and read back as the deserialized value |
| Codec.SnapshotDecode | RedisStore.py:350-353 | a snapshot payload decodes to a value exactly when it starts with `"<vpckl:>"` |
| Codec.SnapshotRoundTrip | RedisStore.py:345-353 | every value, strings included, survives the snapshot codec |
| Codec.TagsAreDistinct | RedisStore.py:262-273 | a snapshot payload reads as a plain string through the single-value codec, and a single-value payload of a non-string is never taken for a snapshot |
| Expiration.StartTracker | RedisStore.py:504-512 | with `create` the tracker starts from the TTL of the raw key at `now`; without it nothing is tracked |
| Expiration.HandleExpiration | RedisStore.py:541-549 | no change when nothing is tracked; otherwise the remaining time is the old time minus the elapsed time, stamped now; at or below zero the key is deleted and tracking stops, above zero the key gets that TTL and keeps its value |
| Expiration.ExpireHandle | RedisStore.py:527-530 | the key's TTL is set and the tracker restarts from `now` with that time |
| Expiration.RefreshKeepsContents | RedisStore.py:541-549 | a refresh that does not fire keeps the key's value and a live tracker |
| Expiration.ExpiredTrackerIsInert | RedisStore.py:541-549 | once a refresh has fired, later refreshes at any time change nothing |
| Expiration.RefreshIsIdempotentAtOneInstant | RedisStore.py:541-549 | two refreshes at the same instant are one refresh |
| Expiration.TrackedTimeNeverGrows | RedisStore.py:541-549 | with the clock moving forward the tracked time stays between 0 and its old value |
| Handles.StringTypeOk | RedisStore.py:391-397 | accepts only a string key, and among string keys exactly those whose text does not start with `"<pckl:>"` |
| Handles.IntegerTypeOkAsWritten | RedisStore.py:450-457 | (as written) accepts only string keys that the handle reads as a non-negative integer |
| Handles.IntegerTypeOk | RedisStore.py:450-457 | (corrected) accepts exactly the non-empty string keys the handle reads as an integer, and everything the as-written check accepts |
| Handles.BooleanTypeOk | RedisStore.py:481-484 | accepts exactly the keys holding one of the two texts the boolean handle writes |
| Handles.TypeOk | RedisStore.py:229-230 | every class's check, as written, implies the base check that the key's type is the class's `dataType`; for lists, sets, sorted sets and hashes it is exactly that check |
| Handles.TypeOkCorrected | RedisStore.py:450-457 | (corrected) agrees with the as-written checks except for integers, and accepts everything they accept |
| Handles.OpenWith | RedisStore.py:215-222 | a key that passes the check is kept untouched; one that fails is deleted, and marked for re-creation exactly when `create` is set |
| Handles.Open | RedisStore.py:215-222 | the key is kept exactly when the class's check passes; otherwise it is deleted and no other key changes |
| Handles.ConstructScalar | RedisStore.py:215-227 | on the escaped key: kept exactly when the check passes; re-created exactly when it fails and `create` is set, then holding the default payload unless a negative `expires` deletes it; deleted when it fails without `create`; no other key changes |
| Handles.ConstructScalarWith | RedisStore.py:215-227 | construction keeps a well-typed key; otherwise the key is deleted or holds exactly the default, with `expires` as its TTL; no other key changes |
| Handles.IntegerValue | RedisStore.py:438-442 | a missing key reads as nothing, an empty string as 0, a non-integer text as an error |
| Handles.BooleanValue | RedisStore.py:489-496 | only the text `True` reads as true |
| Handles.ObjectValue | RedisStore.py:324-329 | the stored payload, decoded |
| Handles.Toggle | RedisStore.py:486-499 | the value read back afterwards is the negation of the value before; a missing key reads as false, so it reads back as true |
| Handles.IntegerReadsBackWrite | RedisStore.py:435-442 | an integer handle reads back every integer it wrote, negative ones included |
| Handles.Increment | RedisStore.py:459-463 | a successful increment replies with a signed 64-bit value, which the handle then reads back; a key holding the empty string is refused; no other key changes |
| Handles.ScalarReadsBackWrite | RedisStore.py:486-496 | boolean and object handles read back what they wrote |
| Handles.IncrementAddsAmount | RedisStore.py:459-463 | after `increment(amount)` the handle reads the old value plus `amount`; the store refuses the increment exactly when `amount`, the old value or the sum leaves the signed 64-bit range, and always for a key holding the empty string |
| Handles.DefaultsPassTheirCheck | RedisStore.py:388-499 | the payload each scalar handle writes by default or on reset passes its type check, so a re-created key is kept by the next construction; an integer's text passes the as-written check exactly when the integer is not negative, and always passes the corrected one |
| Handles.ConstructCoercesWrongShape | RedisStore.py:215-227 | constructing over a key of the wrong shape with `create` leaves exactly the default, which then passes the check |
| Handles.NegativeCounterIsResetAsWritten | RedisStore.py:450-463 | as written, decrementing a counter from 0 stores `-1`, which the next construction discards and replaces by `0` |
| Handles.IntegerCheckAcceptsEveryWrite | RedisStore.py:450-457 | with the corrected check, every integer the handle writes is kept by the next construction and reads back |
| Lists.PushTail | RedisStore.py:618-621 | while the tracker is live the payload is added at the tail; an expired tracker clears the key |
| Lists.Append | RedisStore.py:618-621 | a wrong-kind key is an error; the reply is the new length |
| Lists.Pop | RedisStore.py:613-616 | yields the decoded head exactly when the list is non-empty, leaving the rest |
| Lists.Remove | RedisStore.py:623-626 | every occurrence of the payload is removed and their number is the reply |
| Lists.Items | RedisStore.py:604-605 | the decoded items in order |
| Lists.AppendEach | RedisStore.py:564-574 | while live, the list gains the payloads of the values in order; a non-empty loop leaves the tracker live |
| Lists.Reset | RedisStore.py:564-574 | while the tracked expiration has time left, the list is exactly the encoded values in order and the tracker stays live; no other key changes |
| Lists.NewList | RedisStore.py:558-562 | an empty default switches creation off; a well-typed key is kept, and left alone when there is no `expires` |
| Lists.ResetStoresValuesInOrder | RedisStore.py:564-574 | `resetValue(xs)` leaves the list equal to the encoded `xs`, in order |
| Lists.ResetAfterExpiryDropsFirst | RedisStore.py:564-574 | with an expired tracker, the first append's refresh clears the key and only the later values remain |
| Lists.ResetReadsBack | RedisStore.py:564-605 | reading a reset list gives the values back |
| Lists.EmptyDefaultNeverCreates | RedisStore.py:558-562 | a list with an empty default is never created, whatever `create` says |
| Lists.NewListCoercesWrongKind | RedisStore.py:558-574 | with a non-empty default, a key of another kind ends up holding exactly the encoded default |
| Lists.AppendThenPopIsFifo | RedisStore.py:613-621 | for any list and any tracker that has not fired by the time of the pop, with no expiry by the server between the calls: after appending `x`, pop yields the old head, or `x` on an empty list, and leaves the rest in order |
| Lists.AppendAppendPop | RedisStore.py:613-621 | for any list and any tracker that has not fired by the pop, with no expiry by the server between the calls: `append(x); append(y); pop()` returns the old head, or `x` on an empty list, and leaves the remaining items followed by `y` |
| Sets.Add | RedisStore.py:682-685 | replies 1 exactly when the payload is new; while live, the members gain the payload |
| Sets.Remove | RedisStore.py:690-693 | replies 1 exactly when the payload was a member; while live, it is removed |
| Sets.IsMember | RedisStore.py:687-688 | true exactly when the payload is a member |
| Sets.AddEach | RedisStore.py:649-654 | while live, the members gain the payloads of all the values |
| Sets.Reset | RedisStore.py:649-654 | while the tracked expiration has time left, the members are exactly the payloads of the values and the tracker stays live; no other key changes |
| Sets.NewSet | RedisStore.py:643-647 | as for lists: empty default, no creation; a well-typed key is kept |
| Sets.AddTwiceStoresOnce | RedisStore.py:682-685 | for any set and any tracker that has not fired by the second add, with no expiry by the server between the calls: the first add replies 1 exactly when the payload is new, the second replies 0, and the set gains exactly that one payload |
| Sets.ResetStoresMembers | RedisStore.py:649-654 | `resetValue(xs)` leaves exactly the payloads of `xs` |
| Sets.ResetThenIsMember | RedisStore.py:649-688 | after a reset, `ismember(v)` holds exactly when `v` was among the values |
| Sets.EmptyDefaultNeverCreates | RedisStore.py:643-647 | a set with an empty default is never created |
| SortedSets.Add | RedisStore.py:790-795 | without a score, or with score 0, the member's score is the current cardinality; other scores are unchanged |
| SortedSets.AddEach | RedisStore.py:775-782 | while live, the members gain exactly the payloads of the values, and no other key changes |
| SortedSets.Reset | RedisStore.py:775-782 | the key is left a sorted set or absent and no other key changes; its scores are the ranks of the values (`SortedSets.ResetRanksInOrder`) |
| SortedSets.NewSortedSet | RedisStore.py:501-512 | creation is not switched off by an empty default; the key is re-initialised exactly when `create` is set and it fails the kind check |
| SortedSets.DefaultScoreRanksLast | RedisStore.py:790-795 | a new value added with the default score ranks after every existing member, and the scores stay a ranking |
| SortedSets.ResetRanksInOrder | RedisStore.py:775-782 | after `resetValue(xs)` with distinct payloads, the members are the payloads of `xs` and the i-th value has score i |
| Hashes.GetItem | RedisStore.py:816-820 | a missing field is a `KeyError`, a present one its decoded value |
| Hashes.SetItem | RedisStore.py:822-823 | the field maps to the value's payload, the other fields are kept, and the reply is 1 exactly when the field is new |
| Hashes.HasKey | RedisStore.py:864-865 | true exactly when the field exists |
| Hashes.DelItem | RedisStore.py:891-892 | replies 1 exactly when the field existed; a missing field changes nothing |
| Hashes.Get | RedisStore.py:885-889 | the decoded value of a present field, the default otherwise |
| Hashes.Pop | RedisStore.py:876-880 | a missing field gives the default and changes nothing; a present one gives its value |
| Hashes.SetDefault | RedisStore.py:894-898 | a present field is returned unchanged; a missing one is written with the default |
| Hashes.Move | RedisStore.py:852-859 | true for the same field; false and no change when the target exists; otherwise the value moves |
| Hashes.Update | RedisStore.py:870-874 | every entry of the dictionary is written and the other fields are kept |
| Hashes.Reset | RedisStore.py:834-837 | the hash holds exactly the encoded dictionary |
| Hashes.AsDict | RedisStore.py:839-843 | every field, decoded |
| Hashes.NewDict | RedisStore.py:215-227 | a hash key is kept; a re-initialised key holds exactly the encoded default unless a negative `expires` deletes it; no other key changes |
| Hashes.GetAfterSet | RedisStore.py:816-823 | a value reads back from the field it was written to, and other fields are untouched |
| Hashes.PopRemoves | RedisStore.py:876-880 | after `pop` the field is gone |
| Hashes.SetDefaultIsStable | RedisStore.py:894-898 | a second `setdefault` with another default returns the first default |
| Hashes.MovePreservesValue | RedisStore.py:852-859 | after a move the value is at the new field and gone from the old |
| Hashes.ResetReadsBack | RedisStore.py:834-843 | reading back a reset hash gives the dictionary |
| PickledDicts.Snapshot | RedisStore.py:355-360 | nothing for a missing key; the snapshot-decoded payload otherwise |
| PickledDicts.DictKey | RedisStore.py:337-343 | the key is in escaped form; for a parent key and a name without reserved characters it is `<parent>.<name>` |
| PickledDicts.ResetValue | RedisStore.py:362-363 | the key holds a snapshot payload and no other key changes |
| PickledDicts.NewPickledDict | RedisStore.py:337-343 | a string key is kept; another kind is re-created exactly when `create` is set |
| PickledDicts.Update | RedisStore.py:365-370 | only a non-string key is an error; no other key changes |
| PickledDicts.SetItem | RedisStore.py:372-376 | the snapshot gains the entry under the escaped name; a non-dictionary snapshot is an error |
| PickledDicts.Lookup | RedisStore.py:378-381 | the entry of a stored dictionary, a `KeyError` for a missing one |
| PickledDicts.GetItemAsWritten | RedisStore.py:378-381 | (as written) for a name without `%` it looks the name up unescaped, and agrees with the corrected lookup when the name has no reserved character |
| PickledDicts.GetItem | RedisStore.py:378-381 | (corrected) succeeds exactly when the stored dictionary has an entry under the escaped name, the key `__setitem__` uses |
| PickledDicts.ResetReadsBack | RedisStore.py:351-363 | the snapshot reads back what was written |
| PickledDicts.NewPickledDictHoldsDefault | RedisStore.py:337-343 | a fresh pickled dict over a missing key holds the default, or the empty dictionary for a falsy one |
| PickledDicts.UpdateMerges | RedisStore.py:365-370 | `update` merges into a stored dictionary, the new entries winning |
| PickledDicts.GetAfterSet | RedisStore.py:372-381 | with the corrected lookup, an entry reads back under its name, and other names are untouched |
| PickledDicts.SetThenGetFailsAsWritten | RedisStore.py:372-381 | as written, the entry `"a b"` cannot be read back after it was set |
| KeyDicts.ClassifyPayload | RedisStore.py:928-941 | digits give an integer, then `"<pckl:>"` an object, `"<vpckl:>"` a pickled dict, exactly `"<dict:>"` a key dict, `True`/`False` a boolean, anything else a string, each case excluding the earlier ones |
| KeyDicts.ClassifyChild | RedisStore.py:926-950 | a string child is classified by payload; list, set and sorted set map to their handles; every other kind maps to an object handle |
| KeyDicts.Segment | RedisStore.py:915-917 | the segment of a name holds no reserved character and no `.` |
| KeyDicts.ChildKey | RedisStore.py:915-926 | an entry's key lies one level below the map's key, and is already escaped when the map's key is |
| KeyDicts.HasKey | RedisStore.py:1050-1051 | (as written) for a name without `.` it is true exactly when the entry's key exists |
| KeyDicts.ShapeKind | RedisStore.py:957-974 | a string goes to the string handle, a nested dict to the key-dict handle, a pickled-dict handle to its own class, and an integer to the integer handle exactly when it lies in the signed 64-bit range (beyond it a Python 2 `long` falls through to the object handle) |
| KeyDicts.NewKeyDict | RedisStore.py:906-910 | the handle keeps the escaped key and an empty cache; only its own key is touched |
| KeyDicts.ConstructChild | RedisStore.py:949 | constructing an entry handle touches only the entry's key |
| KeyDicts.HasChild | RedisStore.py:1050-1051 | (corrected) true exactly when the entry's key exists |
| KeyDicts.GetItem | RedisStore.py:915-951 | a missing entry is a `KeyError` that drops it from the cache; a truthy cached handle is reused; otherwise the child is classified and the cache records the class |
| KeyDicts.Get | RedisStore.py:1086-1090 | (as written) the default when the code's `has_key` is false; a `KeyError` when it is true but the entry's own key is missing, with the entry dropped from the handle cache; the entry otherwise; for a name without `.`, the entry exactly when it exists |
| KeyDicts.GetCorrected | RedisStore.py:1086-1090 | (corrected) an entry handle exactly when the entry exists; nothing changes otherwise |
| KeyDicts.PlanSetItem | RedisStore.py:953-982 | a cached handle of the value's class is reset; else a pickled-dict value is refused, because that handle takes no `expires`; else a new handle is cached |
| KeyDicts.EntryNames | RedisStore.py:1005-1012 | the names listed are exactly the unescaped suffixes of `<key>.*` that contain no `.`, as a set |
| KeyDicts.SegmentIsFixed | RedisStore.py:915-917 | a segment has no reserved character and no `.`, so escaping it again changes nothing |
| KeyDicts.ShapeSurvivesReload | RedisStore.py:915-982 | the kind and text a shape's handle leaves on a key it has just created classify back to that shape, unless it is a string that looks like another shape or a negative integer |
| KeyDicts.NegativeIntegerReloadsAsString | RedisStore.py:930-931 | the text of a negative integer is classified as a string |
| KeyDicts.HashChildIsWipedOnRead | RedisStore.py:915-951 | reading a child that holds a hash makes an object handle whose construction replaces the hash by the empty string |
| KeyDicts.ReadKeepsOtherChildren | RedisStore.py:915-951 | reading a child of any other kind leaves the store as it is |
| KeyDicts.GetFindsEveryEntry | RedisStore.py:1086-1090 | the corrected `get` finds exactly the existing entries and reads them as `__getitem__` does; it agrees with the code's `get` on every name without `.`; where the code's `has_key` misses an existing entry, the code returns the default and the corrected `get` the entry |
| KeyDicts.HasKeyAgreesWithoutDots | RedisStore.py:1050-1051 | for names without `.` the code's `has_key` agrees with the corrected one |
| KeyDicts.DottedNameMissedAsWritten | RedisStore.py:1050-1051 | as written, `has_key("a.b")` is false when the entry `"a.b"` exists |
| KeyDicts.KeysListsEntry | RedisStore.py:1005-1012 | an entry whose name has no `.` or `%` is listed under its own name |
| KeyDicts.KeysSkipGrandchildren | RedisStore.py:1005-1012 | a key two levels down never shows up in `keys()` |
| KeyDicts.NewKeyDictReadsBackAsMap | RedisStore.py:906-910 | a fresh key dict leaves the marker, which classifies back as a key dict |
| Locks.StaleCheck | RedisStore.py:1121-1131 | fires exactly when the last acquisition is non-zero and more than 60 seconds old; then the queue is emptied and the time is now, else nothing changes |
| Locks.PollCount | RedisStore.py:1138-1141 | the timeout is clamped to 58 seconds and polled twice a second; no poll for a timeout that is not positive |
| Locks.Look | RedisStore.py:1144-1150 | a poll sees the token gone, at the head, or waiting behind |
| Locks.Poll | RedisStore.py:1143-1154 | on a timeout or a lost token the token is removed and the time is kept; on acquisition the time is now and the token heads the queue |
| Locks.Acquire | RedisStore.py:1134-1154 | alone, a caller never sees `RESULT_LOSTKEY`; it acquires exactly when it polls at least once and its token heads the queue after the append; on a timeout its token is removed |
| Locks.Release | RedisStore.py:1156-1167 | false exactly when the queue is non-empty and headed by another token; every copy of the token goes, the time is kept, and the other tokens keep their counts and their order: at every cut of the queue, what is kept before the cut precedes what is kept after it |
| Locks.PollSameView | RedisStore.py:1143-1154 | against a queue nobody else changes, polling ends on the first poll unless the token waits behind another |
| Locks.PollDecidedAt | RedisStore.py:1143-1154 | the first poll that sees the token gone or at the head decides the result |
| Locks.PollTimesOut | RedisStore.py:1143-1154 | when every poll sees the token behind another, the caller times out and removes its token |
| Locks.LoneCallerAcquires | RedisStore.py:1134-1154 | a lone caller at a free lock with a positive timeout acquires it |
| Locks.SecondCallerTimesOut | RedisStore.py:1134-1154 | behind a fresh holder, a second caller times out and leaves the queue as it found it |
| Locks.StaleHolderIsEvicted | RedisStore.py:1121-1154 | a holder past 60 seconds is evicted and the next caller acquires at once |
| Locks.EvictedWaiterLosesKey | RedisStore.py:1143-1147 | a poll that finds the token gone returns `RESULT_LOSTKEY` |
| Locks.ReleaseHandsOver | RedisStore.py:1156-1167 | the holder's release returns true and leaves the waiters behind it in order, less any further copies of its token |
| Locks.ReleaseByWaiterIsRefused | RedisStore.py:1156-1167 | a waiter's release returns false and the holder keeps the lock |

## Left out

- The memoising decorators (`cache` and its variants) are left out. They build keys by runtime reflection over a function's code object.
- Client subclasses, database selection from the environment, `reconnect` and `flushKeys` are left out. They are connection and configuration code.
- The `pickle` byte format is left out. It is an opaque pair of functions, and lemmas that need a round trip assume it.
- `Store`: keys never expire on the server's own clock. A TTL is only the last value set, and `ttl()` reports that value rather than the time left. Only the client's own tracker and an EXPIRE with a non-positive time delete a key. The lemmas over several calls (`Lists.AppendThenPopIsFifo`, `Lists.AppendAppendPop`, `Sets.AddTwiceStoresOnce`) therefore assume the server expires nothing between the calls. A key with a server TTL that runs out meanwhile is dropped by the server, which they do not model.
- The clock and `time.sleep` are left out. The time is a parameter and sleeps take no time.
- Threading and cross-process mutual exclusion are left out. Only one caller's steps are modelled, with other processes visible only through the queues a poll reads.
- Floating-point values are left out: `__float__`, fractional timeouts and the float poll interval. Timeouts are whole seconds and polls are half-second ticks.
- The store-side set algebra (`intersection`, `difference`, `union` and their `_update` forms) is left out. It is a thin forward to the server.
- `RedisList.__delitem__` is left out. It passes an index to LREM as a value, so it is no index delete.
- `RedisList.__getitem__`, `__setitem__`, `extend`, `count` and `sorted` are left out. They are direct forwards to the server.
- `RedisKeyDict.rename`, `move` and the cascading `expire`/`ttl` are left out. Each is a recursion over many keys, and `rename` uses a `:` separator that `keys()` does not list.
- `RedisKeyDict` `values`, `items`, `asDict`, `update`, `pop`, `clear`, `setdefault`, `__delitem__`, `setItem` and `__len__` are left out. They are loops over `keys()` and the modelled `__getitem__`.
- `KeyDicts.ShapeSurvivesReload`: covers only a key the shape's handle has just created. An empty list, set or sorted set leaves no key at all. A map written over an existing plain string leaves that string at the entry's key, because `RedisKeyDict.resetValue` writes nothing there and its construction keeps a key that passes the string check. Both entries then reload as another class.
- `KeyDicts.PlanSetItem`: states which handle `__setitem__` resets and how the cache changes, not the writes of the chosen handle's `resetValue`. Those writes are the modelled handle operations.
- `KeyDicts.EntryNames`: the store's glob matching is taken as a plain prefix test. Glob metacharacters in a key are not modelled.
- `KeyDicts.EntryNames`: the names form a set, so two store keys that unescape to the same name are listed once, while `keys()` lists both. The order of `keys()` is the store's and is not modelled either.
- `KeyDicts.ShapeKind`: values carry no `int`/`long` tag, so a small `long` such as `5L` is taken for an `int`. Only the range decides.
- `Handles.Increment`: the store is taken to read the same integer texts as `IsIntegerLiteral`. Newer servers also refuse leading zeros and `-0`, which is not modelled.
- `Locks.Acquire`: the lock's list and integer are an abstract queue and time, not their store encoding. A token that begins with the codec tag is therefore not modelled.
- `Locks.Poll`: the acquisition time recorded is the `now` of the call, not a clock read after the sleeps.
- `SortedSets.Add`: a score given explicitly is a whole number. Fractional scores are not modelled.
- `Handles.IntegerValue`: Python's `int()` also accepts surrounding blanks and a leading `+`. The model accepts only the text the store's INCRBY and the handle itself write.
- `RedisSortedSet.__getitem__`, `score`, `remove` and `all` are left out. They are direct forwards to the server.
- `RedisString` `__iadd__`, `lower`, `upper` and `__len__` are left out. They are string operations the server performs.
- Set `pop` and `clear` are left out. They are direct forwards.
- `setup.py` is left out. It is packaging metadata.

## Findings

| source | as written | input that shows it | evidently intended | confidence | as-written member | corrected member |
|---|---|---|---|---|---|---|
| RedisStore.py:372-381 | `__setitem__` stores the entry under `inKey(name)` but `__getitem__` looks it up under `outKey(name)` | set then get the entry `"a b"`: it is stored as `"a%20b"` and looked up as `"a b"`, giving `KeyError` (`PickledDicts.SetThenGetFailsAsWritten`) | both sides escape the name with `inKey`, so an entry reads back under its name (`PickledDicts.GetAfterSet`) | high (not executed) | PickledDicts.GetItemAsWritten | PickledDicts.GetItem |
| RedisStore.py:450-463 | the integer type check accepts only `isdigit` text, so it refuses the negative numbers the handle itself stores | `decrement` a counter holding 0, then construct the handle again: `-1` is discarded and reset to `0` (`Handles.NegativeCounterIsResetAsWritten`) | accept every integer literal, sign included, so every written integer is kept (`Handles.TypeOkCorrected`, `Handles.IntegerCheckAcceptsEveryWrite`) | high (not executed) | Handles.IntegerTypeOkAsWritten | Handles.IntegerTypeOk |
| RedisStore.py:1050-1051 | `has_key` escapes the name with `inKey` only, while entries live under the name with `.` also escaped as `%2e`; `get` relies on it | with only the entry `"a.b"` present, `has_key("a.b")` tests `<key>.a.b` and answers false, so `get("a.b")` returns the default (`KeyDicts.DottedNameMissedAsWritten`, `KeyDicts.Get`) | test the entry's own key `<key>.a%2eb`, so `get` finds every entry (`KeyDicts.GetCorrected`, `KeyDicts.GetFindsEveryEntry`) | high (not executed) | KeyDicts.HasKey | KeyDicts.HasChild |

=== FILE: codec.dfy ===
/** The value codec: how a native value becomes the string payload the
    store holds (`__pickleIfNeeded__` / `__unpickleIfNeeded__`), and the
    whole-map snapshot payload of `RedisPickledDict`
    (`__vpickleIfNeeded__` / `__unvpickleIfNeeded__`).

    `pickle` itself is not modelled: a `Pickler` carries an arbitrary
    `dumps`/`loads` pair, and the lemmas that need it to be faithful ask for
    `RoundTrips(p)`, i.e. `loads(dumps(v)) == v` for every value. */
module Codec {
  import opened Outcomes

  /** The native values the client stores, by the shape it dispatches on. */
  datatype Value =
    | Str(s: string)                     // str / unicode
    | Int(i: int)                        // int
    | Bool(b: bool)                      // bool
    | NoneValue                          // None
    | ListValue(items: seq<Value>)       // list
    | SortedSetValue(items: seq<Value>)  // IteratorUtils.SortedSet, in rank order
    | SetValue(members: set<Value>)      // set
    | DictValue(entries: map<string, Value>)  // dict
    | PickledDictRef(key: string)        // a RedisPickledDict handle passed as a value
    | Other(id: nat)                     // any other object (float, tuple, instance, ...)

  /** An opaque serializer standing for `pickle.dumps` / `pickle.loads`. */
  datatype Pickler = Pickler(dumps: Value -> string, loads: string -> Value)

  ghost predicate RoundTrips(p: Pickler) {
    forall v :: p.loads(p.dumps(v)) == v
  }

  /** The single-value tag, 7 characters. */
  const PickleTag: string := "<pckl:>"
  /** The whole-map snapshot tag, 8 characters. */
  const SnapshotTag: string := "<vpckl:>"

  /** `__pickleIfNeeded__`: strings are stored as they are, anything else
      is serialized behind the single-value tag. */
  function Encode(p: Pickler, v: Value): (r: string)
    ensures v.Str? ==> r == v.s
    ensures !v.Str? ==> PickleTag <= r && r[|PickleTag|..] == p.dumps(v)
  {
    if v.Str? then v.s else PickleTag + p.dumps(v)
  }

  /** `__unpickleIfNeeded__`: a non-empty payload starting with the tag is
      deserialized from what follows the tag; any other payload is a string. */
  function Decode(p: Pickler, payload: string): (r: Value)
    ensures !(PickleTag <= payload) ==> r == Str(payload)
    ensures PickleTag <= payload ==> r == p.loads(payload[7..])
  {
    if |payload| > 0 && PickleTag <= payload then p.loads(payload[7..]) else Str(payload)
  }

  /** Python truthiness: empty containers, `""`, 0, `False` and `None`
      are false. A handle passed as a value counts as true (its own truth
      reads the store). */
  predicate Truthy(v: Value) {
    match v
    case Str(s) => s != ""
    case Int(i) => i != 0
    case Bool(b) => b
    case NoneValue => false
    case ListValue(xs) => xs != []
    case SortedSetValue(xs) => xs != []
    case SetValue(ms) => ms != {}
    case DictValue(m) => m != map[]
    case PickledDictRef(_) => true
    case Other(_) => true
  }

  /** Values the codec can carry: everything except a string that itself
      begins with the tag. */
  predicate Faithful(v: Value) {
    !(v.Str? && PickleTag <= v.s)
  }

  /** Decoding undoes encoding for every faithful value. */
  lemma DecodeEncode(p: Pickler, v: Value)
    requires RoundTrips(p)
    requires Faithful(v)
    ensures Decode(p, Encode(p, v)) == v
  {
    if !v.Str? {
      assert Encode(p, v)[7..] == p.dumps(v);
    }
  }

  /** Hence two faithful values never share a payload. */
  lemma EncodeInjective(p: Pickler, v: Value, w: Value)
    requires RoundTrips(p)
    requires Faithful(v) && Faithful(w)
    requires Encode(p, v) == Encode(p, w)
    ensures v == w
  {
    DecodeEncode(p, v);
    DecodeEncode(p, w);
  }

  /** A string that happens to begin with the tag is misread: the string
      `"<pckl:>" + dumps(0)` is stored verbatim and read back as the integer 0. */
  lemma TaggedStringIsMisread(p: Pickler)
    requires RoundTrips(p)
    ensures var s := PickleTag + p.dumps(Int(0));
            Encode(p, Str(s)) == s && Decode(p, Encode(p, Str(s))) == Int(0)
  {
    var s := PickleTag + p.dumps(Int(0));
    assert s[7..] == p.dumps(Int(0));
  }

  /** The payloads of `xs`, in order. */
  function EncodeAll(p: Pickler, xs: seq<Value>): (r: seq<string>)
    ensures |r| == |xs|
    ensures forall i :: 0 <= i < |xs| ==> r[i] == Encode(p, xs[i])
    decreases |xs|
  {
    if |xs| == 0 then [] else [Encode(p, xs[0])] + EncodeAll(p, xs[1..])
  }

  /** The values of `payloads`, in order. */
  function DecodeAll(p: Pickler, payloads: seq<string>): (r: seq<Value>)
    ensures |r| == |payloads|
    ensures forall i :: 0 <= i < |payloads| ==> r[i] == Decode(p, payloads[i])
    decreases |payloads|
  {
    if |payloads| == 0 then [] else [Decode(p, payloads[0])] + DecodeAll(p, payloads[1..])
  }

  /** The payloads of the values of `xs`, as a set. */
  function EncodedSet(p: Pickler, xs: seq<Value>): (r: set<string>)
    ensures forall i :: 0 <= i < |xs| ==> Encode(p, xs[i]) in r
    ensures forall m :: m in r ==> exists i :: 0 <= i < |xs| && Encode(p, xs[i]) == m
    decreases |xs|
  {
    if |xs| == 0 then {}
    else
      var rest := EncodedSet(p, xs[1..]);
      assert forall m :: m in rest ==> exists i :: 1 <= i < |xs| && Encode(p, xs[i]) == m by {
        forall m | m in rest
          ensures exists i :: 1 <= i < |xs| && Encode(p, xs[i]) == m
        {
          var j :| 0 <= j < |xs[1..]| && Encode(p, xs[1..][j]) == m;
          assert Encode(p, xs[j + 1]) == m;
        }
      }
      {Encode(p, xs[0])} + rest
  }

  /** No two of the values share a payload. */
  predicate DistinctPayloads(p: Pickler, xs: seq<Value>) {
    forall i, j :: 0 <= i < j < |xs| ==> Encode(p, xs[i]) != Encode(p, xs[j])
  }

  /** `__vpickleIfNeeded__`: every value, strings included, is serialized
      behind the snapshot tag. */
  function SnapshotEncode(p: Pickler, v: Value): (r: string)
    ensures SnapshotTag <= r
  {
    SnapshotTag + p.dumps(v)
  }

  /** `__unvpickleIfNeeded__`: a payload without the snapshot tag yields
      nothing (Python's implicit `None`). */
  function SnapshotDecode(p: Pickler, payload: string): (r: Option<Value>)
    ensures r.Some? <==> SnapshotTag <= payload
  {
    if SnapshotTag <= payload then Some(p.loads(payload[8..])) else None
  }

  lemma SnapshotRoundTrip(p: Pickler, v: Value)
    requires RoundTrips(p)
    ensures SnapshotDecode(p, SnapshotEncode(p, v)) == Some(v)
  {
    assert SnapshotEncode(p, v)[8..] == p.dumps(v);
  }

  /** The snapshot round trip for callers that cannot test `RoundTrips`. */
  lemma SnapshotRoundTripUnder(p: Pickler, v: Value)
    ensures RoundTrips(p) ==> SnapshotDecode(p, SnapshotEncode(p, v)) == Some(v)
  {
    if RoundTrips(p) {
      SnapshotRoundTrip(p, v);
    }
  }

  /** The two tags never collide: a snapshot payload reads as a plain string
      through the single-value codec, and a single-value payload of a
      non-string is never taken for a snapshot. */
  lemma TagsAreDistinct(p: Pickler, v: Value)
    ensures Decode(p, SnapshotEncode(p, v)) == Str(SnapshotEncode(p, v))
    ensures !v.Str? ==> SnapshotDecode(p, Encode(p, v)) == None
  {
    var r := SnapshotEncode(p, v);
    assert r[1] == 'v' && PickleTag[1] == 'p';
    if !v.Str? {
      var e := Encode(p, v);
      assert e[1] == 'p' && SnapshotTag[1] == 'v';
    }
  }
}

=== FILE: expiration.dfy ===
/** Client-side expiration carry-forward of the iterable handles (list,
    set, sorted set): the handle remembers the TTL it last saw or set and
    when, and after every mutation recomputes the time left and re-applies
    it (`RedisIterable.expire` / `RedisIterable.handleExpiration`). The
    clock is a parameter, `now`, in whole seconds. */
module Expiration {
  import opened Store
  import opened Handles

  /** `expirationTime` and `expirationTimestamp`. A `time` of 0 stands for
      both Python `None` and 0: either way nothing is tracked. */
  datatype Tracker = Tracker(time: int, stamp: int)

  /** A handle on an iterable key: the escaped key and its tracker. */
  datatype Iterable = Iterable(key: string, tracker: Tracker)

  datatype Tracked = Tracked(store: Store, handle: Iterable)

  /** A handle operation's new store, new handle and result. */
  datatype Step<T> = Step(store: Store, handle: Iterable, out: T)

  /** A freshly constructed iterable handle and how construction treated
      the key it found. */
  datatype Constructed = Constructed(store: Store, handle: Iterable, coercion: Coercion)

  /** Seconds left at `now` of a tracked expiration. */
  function Remaining(tr: Tracker, now: int): int {
    tr.time - (now - tr.stamp)
  }

  /** The tracker will not fire at `now`. */
  predicate Live(tr: Tracker, now: int) {
    tr.time == 0 || Remaining(tr, now) > 0
  }

  /** `RedisIterable.__init__`: with `create`, the TTL of `rawKey` is
      snapshotted; without it nothing is tracked. As in the code, the
      snapshot reads the key before it has been escaped. */
  function StartTracker(st: Store, rawKey: string, create: bool, now: int): (tr: Tracker)
    ensures tr.stamp == now
    ensures !create ==> tr.time == 0
    ensures create ==> tr.time == Ttl(st, rawKey)
  {
    Tracker(if create then Ttl(st, rawKey) else 0, now)
  }

  /** `RedisIterable.expire(ttl)`: set the key's TTL (0 or less deletes it)
      and track `seconds` from `now`. */
  function ExpireHandle(st: Store, h: Iterable, seconds: int, now: int): (r: Tracked)
    ensures r.handle == Iterable(h.key, Tracker(seconds, now))
    ensures r.store == Expire(st, h.key, seconds)
  {
    Tracked(Expire(st, h.key, seconds), Iterable(h.key, Tracker(seconds, now)))
  }

  /** `RedisIterable.handleExpiration`. */
  function HandleExpiration(st: Store, h: Iterable, now: int): (r: Tracked)
    ensures r.handle.key == h.key
    ensures h.tracker.time == 0 ==> r == Tracked(st, h)
    ensures h.tracker.time != 0 ==> r.handle.tracker.stamp == now
    ensures h.tracker.time != 0 && Remaining(h.tracker, now) <= 0 ==>
              && r.handle.tracker.time == 0
              && h.key !in r.store
              && SameElsewhere(st, r.store, h.key)
    ensures h.tracker.time != 0 && Remaining(h.tracker, now) > 0 ==>
              && r.handle.tracker.time == Remaining(h.tracker, now)
              && (h.key in r.store <==> h.key in st)
              && (h.key in st ==> r.store[h.key] == st[h.key].(ttl := Remaining(h.tracker, now)))
              && SameElsewhere(st, r.store, h.key)
  {
    if h.tracker.time == 0 then Tracked(st, h)
    else
      var left := Remaining(h.tracker, now);
      if left <= 0 then ExpireHandle(st, h, 0, now)
      else ExpireHandle(st, h, left, now)
  }

  /** A refresh that does not fire touches only the TTL. */
  lemma RefreshKeepsContents(st: Store, h: Iterable, now: int)
    ensures var r := HandleExpiration(st, h, now);
            Live(h.tracker, now) ==>
            && Live(r.handle.tracker, now)
            && (h.key in r.store <==> h.key in st)
            && (h.key in st ==> r.store[h.key].val == st[h.key].val)
  {
  }

  /** Once the tracked time has run out and the key was cleared, later
      refreshes do nothing, at any time. */
  lemma ExpiredTrackerIsInert(st: Store, h: Iterable, now: int, later: int)
    requires h.tracker.time != 0 && Remaining(h.tracker, now) <= 0
    ensures var r := HandleExpiration(st, h, now);
            HandleExpiration(r.store, r.handle, later) == r
  {
  }

  /** A refresh that does not fire leaves a tracker that does not fire at
      the same instant, so a second refresh at that instant changes nothing. */
  lemma RefreshIsIdempotentAtOneInstant(st: Store, h: Iterable, now: int)
    requires Live(h.tracker, now)
    ensures var r := HandleExpiration(st, h, now);
            Live(r.handle.tracker, now) && HandleExpiration(r.store, r.handle, now) == r
  {
    var r := HandleExpiration(st, h, now);
    if h.tracker.time != 0 {
      var s2 := HandleExpiration(r.store, r.handle, now).store;
      assert s2 == Expire(r.store, h.key, Remaining(h.tracker, now));
      if h.key in r.store {
        assert s2[h.key] == r.store[h.key];
      }
      assert s2 == r.store;
    }
  }

  /** A handle that will still be live at `t2` is live at every earlier
      `t1`, and a refresh at `t1` leaves a tracker that is live at `t2`:
      refreshing does not bring the expiry forward. */
  lemma RefreshStaysLive(st: Store, h: Iterable, t1: int, t2: int)
    requires t1 <= t2 && Live(h.tracker, t2)
    ensures Live(h.tracker, t1)
    ensures Live(HandleExpiration(st, h, t1).handle.tracker, t2)
  {
  }

  /** With the clock moving forward, the tracked time only shrinks. */
  lemma TrackedTimeNeverGrows(st: Store, h: Iterable, now: int)
    requires h.tracker.time > 0 && now >= h.tracker.stamp
    ensures 0 <= HandleExpiration(st, h, now).handle.tracker.time <= h.tracker.time
  {
  }
}

=== FILE: handles.dfy ===
/** The typed handle family: which remote shape each handle class expects
    (`__correctTypeInRedis__`), the construction protocol every handle runs
    (`RedisItem.__init__`), and the scalar handles' payloads. */
module Handles {
  import opened Outcomes
  import opened Text
  import opened Keys
  import opened Codec
  import opened Store

  /** The handle classes. `KeyDictHandle` is a nested map, whose own key
      holds a marker string. */
  datatype HandleKind =
    | StringHandle | IntegerHandle | BooleanHandle | ObjectHandle
    | PickledDictHandle | KeyDictHandle
    | ListHandle | SetHandle | SortedSetHandle | HashHandle
  {
    /** Handles whose key holds a single string. */
    predicate IsScalar() {
      !(ListHandle? || SetHandle? || SortedSetHandle? || HashHandle?)
    }
  }

  /** The marker a nested map keeps at its own key. */
  const DictMarker: string := "<dict:>"

  /** The string at `key`, when there is one. */
  function Payload(st: Store, key: string): Option<string> {
    if key in st && st[key].val.RStr? then Some(st[key].val.s) else None
  }

  // ---------------------------------------------------------------- type checks

  /** The store type each handle class declares as its `dataType`. */
  function DataType(kind: HandleKind): Kind {
    match kind
    case ListHandle => KList
    case SetHandle => KSet
    case SortedSetHandle => KZSet
    case HashHandle => KHash
    case _ => KString
  }

  /** `RedisString.__correctTypeInRedis__`: a string that is not tagged as a
      serialized object. */
  function StringTypeOk(st: Store, key: string): (b: bool)
    ensures b ==> KindOf(st, key) == KString
    ensures KindOf(st, key) == KString ==> (b <==> !(PickleTag <= st[key].val.s))
  {
    Payload(st, key).Some? && !(PickleTag <= Payload(st, key).value)
  }

  /** `RedisInteger.__correctTypeInRedis__` as written: a string of digits
      only, so exactly the keys that read as a non-negative integer. */
  function IntegerTypeOkAsWritten(st: Store, key: string): (b: bool)
    ensures b ==> KindOf(st, key) == KString
    ensures b ==> exists n: nat :: IntegerValue(st, key) == Ok(Some(n))
  {
    if Payload(st, key).Some? && IsDigits(Payload(st, key).value) then
      var text := Payload(st, key).value;
      assert IsIntegerLiteral(text) && ParseInteger(text) == ParseNat(text);
      assert IntegerValue(st, key) == Ok(Some(ParseNat(text)));
      true
    else false
  }

  /** The same check, corrected to accept every key the handle reads as an
      integer, negative ones included (the empty string, which reads as 0
      but is not an integer for INCRBY, stays refused). */
  function IntegerTypeOk(st: Store, key: string): (b: bool)
    ensures b <==> Payload(st, key).Some? && Payload(st, key).value != "" && IntegerValue(st, key).Ok?
    ensures IntegerTypeOkAsWritten(st, key) ==> b
  {
    Payload(st, key).Some? && IsIntegerLiteral(Payload(st, key).value)
  }

  /** `RedisBoolean.__correctTypeInRedis__`: the text `True` or `False`,
      which are exactly the payloads the handle writes. */
  function BooleanTypeOk(st: Store, key: string): (b: bool)
    ensures b ==> KindOf(st, key) == KString
    ensures b <==> exists x: bool :: Payload(st, key) == Some(BooleanPayload(x))
  {
    if Payload(st, key).Some? && Payload(st, key).value in {"True", "False"} then
      assert Payload(st, key) == Some(BooleanPayload(Payload(st, key).value == "True"));
      true
    else false
  }

  /** The check each handle class runs on construction, as written; the
      classes without their own check use the base check, a comparison of
      the store's TYPE with the class's `dataType`. Every check implies the
      base check, which each override calls first. */
  function TypeOk(kind: HandleKind, st: Store, key: string): (b: bool)
    ensures b ==> KindOf(st, key) == DataType(kind)
    ensures !kind.IsScalar() ==> (b <==> KindOf(st, key) == DataType(kind))
  {
    match kind
    case StringHandle => StringTypeOk(st, key)
    case KeyDictHandle => StringTypeOk(st, key)
    case IntegerHandle => IntegerTypeOkAsWritten(st, key)
    case BooleanHandle => BooleanTypeOk(st, key)
    case ObjectHandle => KindOf(st, key) == KString
    case PickledDictHandle => KindOf(st, key) == KString
    case ListHandle => KindOf(st, key) == KList
    case SetHandle => KindOf(st, key) == KSet
    case SortedSetHandle => KindOf(st, key) == KZSet
    case HashHandle => KindOf(st, key) == KHash
  }

  /** The checks with the integer check corrected. */
  function TypeOkCorrected(kind: HandleKind, st: Store, key: string): (b: bool)
    ensures kind != IntegerHandle ==> (b <==> TypeOk(kind, st, key))
    ensures TypeOk(kind, st, key) ==> b
  {
    if kind == IntegerHandle then IntegerTypeOk(st, key) else TypeOk(kind, st, key)
  }

  // ---------------------------------------------------------------- construction

  /** What construction did to the key: nothing, or it discarded a value of
      the wrong shape and then either left the key empty or re-created it
      from the default. */
  datatype Coercion = Kept | Discarded | Reinitialized

  datatype Opened = Opened(store: Store, coercion: Coercion)

  /** The first half of `RedisItem.__init__`: a key that fails the type
      check is deleted; it is to be re-created only when `create` is set. */
  function OpenWith(st: Store, key: string, typeOk: bool, create: bool): (r: Opened)
    ensures typeOk <==> r.coercion == Kept
    ensures typeOk ==> r.store == st
    ensures !typeOk ==> r.store == Delete(st, key)
    ensures r.coercion == Reinitialized <==> !typeOk && create
  {
    if typeOk then Opened(st, Kept)
    else Opened(Delete(st, key), if create then Reinitialized else Discarded)
  }

  /** `OpenWith` under the class's own check. */
  function Open(st: Store, kind: HandleKind, key: string, create: bool): (r: Opened)
    ensures r.coercion == Kept <==> TypeOk(kind, st, key)
    ensures r.coercion == Kept ==> r.store == st
    ensures r.coercion != Kept ==> key !in r.store && SameElsewhere(st, r.store, key)
  {
    OpenWith(st, key, TypeOk(kind, st, key), create)
  }

  /** `RedisItem.__init__` for a handle whose key holds one string: escape
      the key, run the type check, re-create from the default `payload` if
      asked to, then apply `expires` when it is non-zero. */
  function ConstructScalarWith(st: Store, key: string, typeOk: bool, payload: string,
                               create: bool, expires: int): (r: Opened)
    ensures typeOk ==> r == Opened(if expires != 0 then Expire(st, key, expires) else st, Kept)
    ensures !typeOk && !create ==> r.coercion == Discarded && key !in r.store
    ensures !typeOk && create && expires >= 0 ==>
              && r.coercion == Reinitialized
              && key in r.store && r.store[key].val == RStr(payload)
              && r.store[key].ttl == expires
    ensures !typeOk && create && expires < 0 ==> key !in r.store
    ensures SameElsewhere(st, r.store, key)
  {
    var o := OpenWith(st, key, typeOk, create);
    var st1 := if o.coercion == Reinitialized then SetString(o.store, key, payload) else o.store;
    Opened(if expires != 0 then Expire(st1, key, expires) else st1, o.coercion)
  }

  /** `RedisItem.__init__` under the class's own check, on the escaped key. */
  function ConstructScalar(st: Store, kind: HandleKind, rawKey: string, payload: string,
                           create: bool, expires: int): (r: Opened)
    requires kind.IsScalar()
    ensures r.coercion == Kept <==> TypeOk(kind, st, InKey(rawKey))
    ensures r.coercion == Kept && expires == 0 ==> r.store == st
    ensures r.coercion == Reinitialized <==> !TypeOk(kind, st, InKey(rawKey)) && create
    ensures r.coercion == Reinitialized && expires >= 0 ==>
              Payload(r.store, InKey(rawKey)) == Some(payload)
    ensures r.coercion == Discarded ==> InKey(rawKey) !in r.store
    ensures SameElsewhere(st, r.store, InKey(rawKey))
  {
    var key := InKey(rawKey);
    ConstructScalarWith(st, key, TypeOk(kind, st, key), payload, create, expires)
  }

  // ---------------------------------------------------------------- scalar payloads

  /** What each scalar handle's `resetValue` writes. */
  function StringPayload(s: string): string { s }
  function IntegerPayload(i: int): string { IntToDecimal(i) }
  function BooleanPayload(b: bool): string { if b then "True" else "False" }

  /** `RedisInteger.value()`: `int(value or 0)`, nothing for a missing key. */
  function IntegerValue(st: Store, key: string): (r: Result<Option<int>>)
    ensures key !in st ==> r == Ok(None)
    ensures Payload(st, key) == Some("") ==> r == Ok(Some(0))
    ensures key in st && !st[key].val.RStr? ==> r == Err(WrongType)
    ensures Payload(st, key).Some? && Payload(st, key).value != "" ==>
              (r.Ok? <==> IsIntegerLiteral(Payload(st, key).value))
  {
    var s :- Get(st, key);
    match s
    case None => Ok(None)
    case Some(text) =>
      if text == "" then Ok(Some(0))
      else if IsIntegerLiteral(text) then Ok(Some(ParseInteger(text)))
      else Err(NotAnInteger)
  }

  /** `RedisBoolean.value()`: only the text `True` reads as true. */
  function BooleanValue(st: Store, key: string): (r: Result<Option<bool>>)
    ensures key !in st ==> r == Ok(None)
    ensures Payload(st, key).Some? ==> r == Ok(Some(Payload(st, key).value == "True"))
  {
    var s :- Get(st, key);
    match s
    case None => Ok(None)
    case Some(text) => Ok(Some(text == "True"))
  }

  /** `RedisObject.value()`: the decoded payload. */
  function ObjectValue(p: Pickler, st: Store, key: string): (r: Result<Option<Value>>)
    ensures key !in st ==> r == Ok(None)
    ensures Payload(st, key).Some? ==> r == Ok(Some(Decode(p, Payload(st, key).value)))
  {
    var s :- Get(st, key);
    match s
    case None => Ok(None)
    case Some(text) => Ok(Some(Decode(p, text)))
  }

  /** `RedisInteger.increment` / `decrement` (a negative `amount`):
      the store's own INCRBY. Its reply is the new value, which the handle
      then reads back. */
  function Increment(st: Store, key: string, amount: int): (r: Result<Reply<int>>)
    ensures r.Ok? ==> InInt64(r.value.out) && IntegerValue(r.value.store, key) == Ok(Some(r.value.out))
    ensures r.Ok? ==> SameElsewhere(st, r.value.store, key)
    ensures Payload(st, key) == Some("") ==> r.Err?
  {
    var r := IncrBy(st, key, amount);
    if r.Ok? then
      IntegerDecimalRoundTrip(r.value.out);
      assert IntToDecimal(r.value.out) != "" by {
        if r.value.out < 0 { assert IntToDecimal(r.value.out)[0] == '-'; }
      }
      r
    else r
  }

  /** An integer handle reads back every integer it wrote. */
  lemma IntegerReadsBackWrite(st: Store, key: string, i: int)
    ensures IntegerValue(SetString(st, key, IntegerPayload(i)), key) == Ok(Some(i))
  {
    IntegerDecimalRoundTrip(i);
    if i >= 0 {
      assert IntegerPayload(i) != "";
    } else {
      assert IntegerPayload(i)[0] == '-';
    }
  }

  /** Boolean and object handles read back what they wrote. */
  lemma ScalarReadsBackWrite(p: Pickler, st: Store, key: string, b: bool, v: Value)
    requires RoundTrips(p) && Faithful(v)
    ensures BooleanValue(SetString(st, key, BooleanPayload(b)), key) == Ok(Some(b))
    ensures ObjectValue(p, SetString(st, key, Encode(p, v)), key) == Ok(Some(v))
  {
    DecodeEncode(p, v);
  }

  /** `RedisBoolean.toggle`: writing the negation of the value read. */
  function Toggle(st: Store, key: string): (r: Result<Store>)
    ensures r.Ok? ==> BooleanValue(r.value, key).Ok?
    ensures key in st && st[key].val.RStr? ==>
              r.Ok? && BooleanValue(r.value, key) == Ok(Some(st[key].val.s != "True"))
    ensures key !in st ==> r.Ok? && BooleanValue(r.value, key) == Ok(Some(true))
  {
    var b :- BooleanValue(st, key);
    var current := b.Some? && b.value;
    Ok(SetString(st, key, BooleanPayload(!current)))
  }

  /** After an increment the integer handle reads the old value plus
      `amount`. The store refuses the increment when `amount`, the old value
      or the sum leaves the signed 64-bit range, and when the key holds the
      empty string (which the handle reads as 0). */
  lemma IncrementAddsAmount(st: Store, key: string, amount: int)
    requires IntegerValue(st, key).Ok?
    ensures Payload(st, key) == Some("") ==> Increment(st, key, amount).Err?
    ensures Payload(st, key) != Some("") ==>
              var prev := IntegerValue(st, key).value;
              var before := if prev.Some? then prev.value else 0;
              && (Increment(st, key, amount).Ok? <==> InInt64(amount) && InInt64(before) && InInt64(before + amount))
              && (Increment(st, key, amount).Ok? ==>
                    IntegerValue(Increment(st, key, amount).value.store, key) == Ok(Some(before + amount)))
  {
  }

  // ---------------------------------------------------------------- properties

  /** The shape every scalar handle writes by default passes its own check,
      so a freshly re-created key is kept by the next construction. */
  lemma DefaultsPassTheirCheck(p: Pickler, st: Store, key: string, i: int, b: bool, v: Value)
    ensures TypeOk(StringHandle, SetString(st, key, StringPayload("")), key)
    ensures TypeOk(KeyDictHandle, SetString(st, key, DictMarker), key)
    ensures TypeOk(IntegerHandle, SetString(st, key, IntegerPayload(i)), key) <==> i >= 0
    ensures TypeOkCorrected(IntegerHandle, SetString(st, key, IntegerPayload(i)), key)
    ensures TypeOk(BooleanHandle, SetString(st, key, BooleanPayload(b)), key)
    ensures TypeOk(ObjectHandle, SetString(st, key, Encode(p, v)), key)
    ensures TypeOk(PickledDictHandle, SetString(st, key, SnapshotEncode(p, v)), key)
  {
    IntegerDecimalRoundTrip(i);
    DecimalIsDigitsIffNatural(i);
    assert DictMarker[1] == 'd' && PickleTag[1] == 'p';
  }

  /** Constructing a scalar handle with `create` over a key of another shape
      discards the old value and leaves the key holding the default, which
      then passes the type check; nothing else changes. */
  lemma ConstructCoercesWrongShape(st: Store, kind: HandleKind, rawKey: string, payload: string)
    requires kind.IsScalar()
    requires !TypeOk(kind, st, InKey(rawKey))
    requires TypeOk(kind, SetString(st, InKey(rawKey), payload), InKey(rawKey))
    ensures var r := ConstructScalar(st, kind, rawKey, payload, true, 0);
            && r.coercion == Reinitialized
            && r.store == SetString(st, InKey(rawKey), payload)
            && TypeOk(kind, r.store, InKey(rawKey))
  {
  }

  /** As written, an integer handle refuses the text of a negative number:
      after `decrement` takes a counter from 0 to -1, the next construction
      of the handle discards -1 and re-creates the default 0. */
  lemma NegativeCounterIsResetAsWritten(st: Store, key: string)
    requires Payload(st, key) == Some(IntegerPayload(0))
    ensures Increment(st, key, -1).Ok?
    ensures var st1 := Increment(st, key, -1).value.store;
            && Payload(st1, key) == Some("-1")
            && !IntegerTypeOkAsWritten(st1, key)
            && ConstructScalarWith(st1, key, IntegerTypeOkAsWritten(st1, key), IntegerPayload(0), true, 0).store
               == SetString(st1, key, "0")
  {
    IntegerDecimalRoundTrip(0);
    var r := Increment(st, key, -1).value;
    assert r.out == -1;
    assert DigitChar(1) == '1';
    assert IntToDecimal(-1) == "-1";
    assert Payload(r.store, key) == Some("-1");
    assert !IsDigit("-1"[0]);
  }

  /** With the corrected check, every integer the handle writes is kept by
      the next construction. */
  lemma IntegerCheckAcceptsEveryWrite(st: Store, key: string, i: int, payload: string, expires: int)
    ensures var st1 := SetString(st, key, IntegerPayload(i));
            && TypeOkCorrected(IntegerHandle, st1, key)
            && ConstructScalarWith(st1, key, TypeOkCorrected(IntegerHandle, st1, key), payload, true, expires).coercion == Kept
            && IntegerValue(st1, key) == Ok(Some(i))
  {
    IntegerReadsBackWrite(st, key, i);
    IntegerDecimalRoundTrip(i);
  }
}

=== FILE: hashes.dfy ===
/** `RedisDict`: a handle on a remote hash whose field values are codec
    payloads. Field names are used as given (they are not escaped), and
    the handle tracks no expiration. */
module Hashes {
  import opened Outcomes
  import opened Keys
  import opened Codec
  import opened Store
  import opened Handles

  /** The payloads of a dictionary's values, field by field. */
  function EncodeFields(p: Pickler, d: map<string, Value>): (r: map<string, string>)
    ensures r.Keys == d.Keys
    ensures forall f :: f in d ==> r[f] == Encode(p, d[f])
  {
    map f | f in d :: Encode(p, d[f])
  }

  /** `RedisDict.__getitem__`: a missing field is a `KeyError`. */
  function GetItem(p: Pickler, st: Store, key: string, field: string): (r: Result<Value>)
    ensures !HashOrAbsent(st, key) ==> r == Err(WrongType)
    ensures HashOrAbsent(st, key) && field !in HashFields(st, key) ==> r == Err(KeyMissing)
    ensures HashOrAbsent(st, key) && field in HashFields(st, key) ==>
              r == Ok(Decode(p, HashFields(st, key)[field]))
  {
    var s :- HGet(st, key, field);
    if s.None? then Err(KeyMissing) else Ok(Decode(p, s.value))
  }

  /** `RedisDict.__setitem__`: HSET of the payload; replies 1 for a new field. */
  function SetItem(p: Pickler, st: Store, key: string, field: string, v: Value): (r: Result<Reply<nat>>)
    ensures r.Err? <==> !HashOrAbsent(st, key)
    ensures r.Ok? ==> HashOrAbsent(r.value.store, key)
                      && HashFields(r.value.store, key) == HashFields(st, key)[field := Encode(p, v)]
                      && (r.value.out == 1 <==> field !in HashFields(st, key))
                      && SameElsewhere(st, r.value.store, key)
  {
    HSet(st, key, field, Encode(p, v))
  }

  /** `RedisDict.has_key` / `__contains__`. */
  function HasKey(st: Store, key: string, field: string): (r: Result<bool>)
    ensures r.Err? <==> !HashOrAbsent(st, key)
    ensures r.Ok? ==> (r.value <==> field in HashFields(st, key))
  {
    HExists(st, key, field)
  }

  /** `RedisDict.__delitem__`: replies 1 when the field existed. */
  function DelItem(st: Store, key: string, field: string): (r: Result<Reply<nat>>)
    ensures r.Err? <==> !HashOrAbsent(st, key)
    ensures r.Ok? ==> HashOrAbsent(r.value.store, key)
                      && HashFields(r.value.store, key) == HashFields(st, key) - {field}
                      && (r.value.out == 1 <==> field in HashFields(st, key))
    ensures r.Ok? && field !in HashFields(st, key) ==> r.value == Reply(st, 0)
  {
    HDel(st, key, field)
  }

  /** `RedisDict.get`: the decoded value, or `default` for a missing field. */
  function Get(p: Pickler, st: Store, key: string, field: string, default: Value): (r: Result<Value>)
    ensures r.Err? <==> !HashOrAbsent(st, key)
    ensures r.Ok? && field in HashFields(st, key) ==> r.value == Decode(p, HashFields(st, key)[field])
    ensures r.Ok? && field !in HashFields(st, key) ==> r.value == default
  {
    var present :- HasKey(st, key, field);
    if present then GetItem(p, st, key, field) else Ok(default)
  }

  /** `RedisDict.pop`: read the field (None when missing), delete it, and
      answer `default` when the delete removed nothing. */
  function Pop(p: Pickler, st: Store, key: string, field: string, default: Value): (r: Result<Reply<Value>>)
    ensures r.Err? <==> !HashOrAbsent(st, key)
    ensures r.Ok? ==> HashOrAbsent(r.value.store, key)
                      && HashFields(r.value.store, key) == HashFields(st, key) - {field}
    ensures r.Ok? && field in HashFields(st, key) ==> r.value.out == Decode(p, HashFields(st, key)[field])
    ensures r.Ok? && field !in HashFields(st, key) ==> r.value == Reply(st, default)
  {
    var v :- Get(p, st, key, field, NoneValue);
    var deleted := DelItem(st, key, field).value;
    if deleted.out == 0 then Ok(Reply(deleted.store, default))
    else Ok(Reply(deleted.store, v))
  }

  /** `RedisDict.setdefault`: write `dv` only when the field is missing,
      then read the field back. */
  function SetDefault(p: Pickler, st: Store, key: string, field: string, dv: Value): (r: Result<Reply<Value>>)
    ensures r.Err? <==> !HashOrAbsent(st, key)
    ensures r.Ok? && field in HashFields(st, key) ==>
              r.value == Reply(st, Decode(p, HashFields(st, key)[field]))
    ensures r.Ok? && field !in HashFields(st, key) ==>
              && HashOrAbsent(r.value.store, key)
              && HashFields(r.value.store, key) == HashFields(st, key)[field := Encode(p, dv)]
              && r.value.out == Decode(p, Encode(p, dv))
  {
    var present :- HasKey(st, key, field);
    var st' := if present then st else SetItem(p, st, key, field, dv).value.store;
    var v := GetItem(p, st', key, field).value;
    Ok(Reply(st', v))
  }

  /** `RedisDict.move(key1, key2)`: true at once for the same field; false,
      changing nothing, when `key2` is taken; a `KeyError` when `key1` is
      missing; otherwise the decoded value is written back under `key2`
      and `key1` is deleted. */
  function Move(p: Pickler, st: Store, key: string, k1: string, k2: string): (r: Result<Reply<bool>>)
    ensures k1 == k2 ==> r == Ok(Reply(st, true))
    ensures k1 != k2 && !HashOrAbsent(st, key) ==> r == Err(WrongType)
    ensures k1 != k2 && HashOrAbsent(st, key) && k2 in HashFields(st, key) ==> r == Ok(Reply(st, false))
    ensures k1 != k2 && HashOrAbsent(st, key) && k2 !in HashFields(st, key) && k1 !in HashFields(st, key) ==>
              r == Err(KeyMissing)
    ensures k1 != k2 && HashOrAbsent(st, key) && k2 !in HashFields(st, key) && k1 in HashFields(st, key) ==>
              && r.Ok? && r.value.out
              && HashOrAbsent(r.value.store, key)
              && HashFields(r.value.store, key) ==
                 (HashFields(st, key) - {k1})[k2 := Encode(p, Decode(p, HashFields(st, key)[k1]))]
  {
    if k1 == k2 then Ok(Reply(st, true))
    else
      var taken :- HasKey(st, key, k2);
      if taken then Ok(Reply(st, false))
      else
        var v :- GetItem(p, st, key, k1);
        var written := SetItem(p, st, key, k2, v).value;
        var deleted := DelItem(written.store, key, k1).value;
        assert HashFields(deleted.store, key) ==
               (HashFields(st, key) - {k1})[k2 := Encode(p, v)];
        Ok(Reply(deleted.store, true))
  }

  /** `RedisDict.update`: one HSET per entry; the entries' fields are
      distinct, so their order does not matter. */
  function Update(p: Pickler, st: Store, key: string, d: map<string, Value>): (r: Result<Store>)
    ensures d == map[] ==> r == Ok(st)
    ensures d != map[] ==> (r.Err? <==> !HashOrAbsent(st, key))
    ensures r.Ok? && d != map[] ==>
              && HashOrAbsent(r.value, key)
              && HashFields(r.value, key) == HashFields(st, key) + EncodeFields(p, d)
              && SameElsewhere(st, r.value, key)
  {
    if d == map[] then Ok(st)
    else if !HashOrAbsent(st, key) then Err(WrongType)
    else Ok(PutHash(st, key, HashFields(st, key) + EncodeFields(p, d)))
  }

  /** `RedisDict.resetValue`: clear, then update from a non-empty dictionary. */
  function Reset(p: Pickler, st: Store, key: string, d: map<string, Value>): (r: Store)
    ensures HashOrAbsent(r, key) && HashFields(r, key) == EncodeFields(p, d)
    ensures SameElsewhere(st, r, key)
  {
    var cleared := Delete(st, key);
    var updated := Update(p, cleared, key, d).value;
    assert HashFields(cleared, key) + EncodeFields(p, d) == EncodeFields(p, d);
    updated
  }

  /** `RedisDict.asDict` / `value()`: every field, decoded. */
  function AsDict(p: Pickler, st: Store, key: string): (r: Result<map<string, Value>>)
    ensures r.Err? <==> !HashOrAbsent(st, key)
    ensures r.Ok? ==> r.value.Keys == HashFields(st, key).Keys
                      && forall f :: f in r.value ==> r.value[f] == Decode(p, HashFields(st, key)[f])
  {
    if !HashOrAbsent(st, key) then Err(WrongType)
    else
      var fs := HashFields(st, key);
      Ok(map f | f in fs :: Decode(p, fs[f]))
  }

  /** `RedisDict.__init__`: the base protocol with `resetValue` as the
      re-creation step; the default is an empty dictionary. */
  function NewDict(p: Pickler, st: Store, rawKey: string, default: map<string, Value>, create: bool,
                   expires: int): (r: Opened)
    ensures var key := InKey(rawKey);
            && (TypeOk(HashHandle, st, key) ==> r.coercion == Kept)
            && (r.coercion == Reinitialized && expires >= 0 ==>
                  HashOrAbsent(r.store, key) && HashFields(r.store, key) == EncodeFields(p, default))
            && SameElsewhere(st, r.store, key)
  {
    var key := InKey(rawKey);
    var o := Open(st, HashHandle, key, create);
    var st1 := if o.coercion == Reinitialized then Reset(p, o.store, key, default) else o.store;
    var st2 := if expires != 0 then Expire(st1, key, expires) else st1;
    SameElsewhereChain(st, o.store, st1, key);
    SameElsewhereChain(st, st1, st2, key);
    Opened(st2, o.coercion)
  }

  // ---------------------------------------------------------------- properties

  /** A faithful value reads back from the field it was written to, and
      every other field keeps its value. */
  lemma GetAfterSet(p: Pickler, st: Store, key: string, field: string, other: string, v: Value)
    requires RoundTrips(p) && Faithful(v) && HashOrAbsent(st, key)
    ensures SetItem(p, st, key, field, v).Ok?
    ensures var st' := SetItem(p, st, key, field, v).value.store;
            && GetItem(p, st', key, field) == Ok(v)
            && (other != field ==> GetItem(p, st', key, other) == GetItem(p, st, key, other))
  {
    DecodeEncode(p, v);
  }

  /** After `pop`, the field is gone, whatever it held. */
  lemma PopRemoves(p: Pickler, st: Store, key: string, field: string, default: Value)
    requires HashOrAbsent(st, key)
    ensures Pop(p, st, key, field, default).Ok?
    ensures var s := Pop(p, st, key, field, default).value.store;
            HasKey(s, key, field) == Ok(false)
  {
  }

  /** `setdefault` with a faithful default: a second call with any other
      default returns the first default and changes nothing. */
  lemma SetDefaultIsStable(p: Pickler, st: Store, key: string, field: string, dv: Value, dv2: Value)
    requires RoundTrips(p) && Faithful(dv) && HashOrAbsent(st, key) && field !in HashFields(st, key)
    ensures SetDefault(p, st, key, field, dv).Ok?
    ensures var s1 := SetDefault(p, st, key, field, dv).value;
            && s1.out == dv
            && SetDefault(p, s1.store, key, field, dv2) == Ok(Reply(s1.store, dv))
  {
    DecodeEncode(p, dv);
  }

  /** A successful move keeps the decoded value when it is faithful: what
      `key2` yields afterwards is what `key1` yielded before. */
  lemma MovePreservesValue(p: Pickler, st: Store, key: string, k1: string, k2: string)
    requires RoundTrips(p) && HashOrAbsent(st, key) && k1 != k2
    requires k1 in HashFields(st, key) && k2 !in HashFields(st, key)
    requires Faithful(Decode(p, HashFields(st, key)[k1]))
    ensures Move(p, st, key, k1, k2).Ok?
    ensures var st' := Move(p, st, key, k1, k2).value.store;
            && GetItem(p, st', key, k2) == GetItem(p, st, key, k1)
            && HasKey(st', key, k1) == Ok(false)
  {
    DecodeEncode(p, Decode(p, HashFields(st, key)[k1]));
  }

  /** Reading back a reset dictionary gives the dictionary, when every
      value is faithful. */
  lemma ResetReadsBack(p: Pickler, st: Store, key: string, d: map<string, Value>)
    requires RoundTrips(p)
    requires forall f :: f in d ==> Faithful(d[f])
    ensures AsDict(p, Reset(p, st, key, d), key) == Ok(d)
  {
    var r := AsDict(p, Reset(p, st, key, d), key).value;
    forall f | f in d
      ensures r[f] == d[f]
    {
      DecodeEncode(p, d[f]);
    }
    assert r == d;
  }
}

=== FILE: keydict.dfy ===
/** `RedisKeyDict`: a nested map spread over several store keys. The map's
    own key holds the marker `"<dict:>"`; entry `name` lives at the child
    key `<map key>.<segment>`, where the segment is the escaped name with
    every `.` escaped as `%2e` as well. Reading an entry classifies the
    child's remote kind and payload into a handle class and constructs that
    handle; the handles are cached per segment. */
module KeyDicts {
  import opened Outcomes
  import opened Text
  import opened Keys
  import opened Codec
  import opened Store
  import opened Handles
  import Lists
  import Sets
  import SortedSets
  import Hashes
  import PickledDicts

  /** The nested map handle: its escaped key and the handle cache, which
      remembers the class of every entry handle made so far. */
  datatype KeyDict = KeyDict(key: string, cache: map<string, HandleKind>)

  /** `__getitem__`'s outcome: the store after constructing the handle, the
      new cache, and the class of the entry handle (`None` is a `KeyError`). */
  datatype Lookup = Lookup(store: Store, cache: map<string, HandleKind>, found: Option<HandleKind>)

  /** The escape of the path separator inside a segment. */
  const DotEscape: string := "%2e"

  /** The segment of an entry name: the escaped name with `.` escaped too.
      It holds no reserved character and no `.`. */
  function Segment(name: string): (seg: string)
    ensures Unreserved(seg) && '.' !in seg
  {
    var s := InKey(name);
    var seg := ReplaceAll(s, ".", DotEscape);
    ReplaceAllRemovesPattern(s);
    assert Unreserved(seg) by {
      forall i | 0 <= i < |seg|
        ensures seg[i] !in Reserved
      {
        var c := seg[i];
        if c in Reserved {
          ReplaceAllKeepsChar(s, ".", DotEscape, c);
          assert false;
        }
      }
    }
    seg
  }

  /** The store key of entry `name`: one level below the map's key, and
      already in escaped form when the map's key is. */
  function ChildKey(dictKey: string, name: string): (k: string)
    ensures dictKey + "." <= k && '.' !in k[|dictKey| + 1..]
    ensures Unreserved(dictKey) ==> Unreserved(k) && InKey(k) == k
  {
    var k := dictKey + "." + Segment(name);
    assert k[|dictKey| + 1..] == Segment(name);
    if Unreserved(dictKey) then
      UnreservedConcat(dictKey, ".");
      UnreservedConcat(dictKey + ".", Segment(name));
      k
    else k
  }

  // ---------------------------------------------------------------- classifiers

  /** The payload classifier of `__getitem__` for a string child, in the
      code's order of tests. */
  function ClassifyPayload(payload: string): (k: HandleKind)
    ensures k == IntegerHandle <==> IsDigits(payload)
    ensures k == ObjectHandle <==> !IsDigits(payload) && PickleTag <= payload
    ensures k == PickledDictHandle <==>
              !IsDigits(payload) && !(PickleTag <= payload) && SnapshotTag <= payload
    ensures k == KeyDictHandle <==>
              !IsDigits(payload) && !(PickleTag <= payload) && !(SnapshotTag <= payload)
              && payload == DictMarker
    ensures k == BooleanHandle <==>
              !IsDigits(payload) && !(PickleTag <= payload) && !(SnapshotTag <= payload)
              && payload != DictMarker && payload in {"True", "False"}
    ensures k == StringHandle <==>
              !IsDigits(payload) && !(PickleTag <= payload) && !(SnapshotTag <= payload)
              && payload != DictMarker && payload !in {"True", "False"}
  {
    if IsDigits(payload) then IntegerHandle
    else if PickleTag <= payload then ObjectHandle
    else if SnapshotTag <= payload then PickledDictHandle
    else if payload == DictMarker then KeyDictHandle
    else if payload in {"True", "False"} then BooleanHandle
    else StringHandle
  }

  /** The whole classifier: strings by payload, the three iterable kinds
      directly, and every other kind as an object handle. */
  function ClassifyChild(kind: Kind, payload: string): (k: HandleKind)
    ensures kind == KString ==> k == ClassifyPayload(payload)
    ensures kind == KList <==> k == ListHandle
    ensures kind == KSet <==> k == SetHandle
    ensures kind == KZSet <==> k == SortedSetHandle
    ensures (kind == KHash || kind == KNone) ==> k == ObjectHandle
    ensures k != HashHandle
  {
    match kind
    case KString => ClassifyPayload(payload)
    case KList => ListHandle
    case KSet => SetHandle
    case KZSet => SortedSetHandle
    case _ => ObjectHandle
  }

  /** The value-shape classifier of `__setitem__`, in the code's order. An
      integer outside the 64-bit range is a Python `long`, not an `int`, and
      falls through to the object handle. */
  function ShapeKind(v: Value): (k: HandleKind)
    ensures k != HashHandle
    ensures v.Str? <==> k == StringHandle
    ensures v.DictValue? <==> k == KeyDictHandle
    ensures v.PickledDictRef? <==> k == PickledDictHandle
    ensures k == IntegerHandle <==> v.Int? && InInt64(v.i)
  {
    match v
    case Str(_) => StringHandle
    case Bool(_) => BooleanHandle
    case Int(i) => if InInt64(i) then IntegerHandle else ObjectHandle
    case ListValue(_) => ListHandle
    case SortedSetValue(_) => SortedSetHandle
    case SetValue(_) => SetHandle
    case PickledDictRef(_) => PickledDictHandle
    case DictValue(_) => KeyDictHandle
    case _ => ObjectHandle
  }

  /** The remote kind the handle of `v`'s shape leaves at its key. */
  function WrittenKind(v: Value): Kind {
    match v
    case ListValue(_) => KList
    case SortedSetValue(_) => KZSet
    case SetValue(_) => KSet
    case _ => KString
  }

  /** The payload the handle of `v`'s shape writes (`""` for the iterables,
      whose payload the classifier ignores). */
  function WrittenPayload(p: Pickler, v: Value): string {
    match v
    case Str(s) => StringPayload(s)
    case Bool(b) => BooleanPayload(b)
    case Int(i) => if InInt64(i) then IntegerPayload(i) else Encode(p, v)
    case PickledDictRef(_) => SnapshotEncode(p, v)
    case DictValue(_) => DictMarker
    case ListValue(_) => ""
    case SortedSetValue(_) => ""
    case SetValue(_) => ""
    case _ => Encode(p, v)
  }

  /** A string whose text the classifier would take for another shape. */
  predicate LooksTyped(s: string) {
    IsDigits(s) || PickleTag <= s || SnapshotTag <= s || s == DictMarker || s in {"True", "False"}
  }

  // ---------------------------------------------------------------- handles

  /** `RedisKeyDict.__init__`: the marker string is a `RedisString` at the
      escaped key with default `"<dict:>"`; the cache starts empty. */
  function NewKeyDict(st: Store, rawKey: string, expires: int): (r: (KeyDict, Store))
    ensures r.0 == KeyDict(InKey(rawKey), map[])
    ensures SameElsewhere(st, r.1, InKey(rawKey))
  {
    var o := ConstructScalar(st, StringHandle, rawKey, DictMarker, true, expires);
    (KeyDict(InKey(rawKey), map[]), o.store)
  }

  /** Constructing the handle of class `kind` at `path` with all the
      class's default arguments, as `__getitem__` does. */
  function ConstructChild(p: Pickler, st: Store, kind: HandleKind, path: string, now: int): (st': Store)
    ensures SameElsewhere(st, st', InKey(path))
  {
    match kind
    case StringHandle => ConstructScalar(st, kind, path, StringPayload(""), true, 0).store
    case IntegerHandle => ConstructScalar(st, kind, path, IntegerPayload(0), true, 0).store
    case BooleanHandle => ConstructScalar(st, kind, path, BooleanPayload(false), true, 0).store
    case ObjectHandle => ConstructScalar(st, kind, path, Encode(p, Str("")), true, 0).store
    case PickledDictHandle => PickledDicts.NewPickledDict(p, st, None, path, NoneValue, true).store
    case KeyDictHandle => NewKeyDict(st, path, 0).1
    case ListHandle => Lists.NewList(p, st, path, [], true, 0, now).store
    case SetHandle => Sets.NewSet(p, st, path, [], true, 0, now).store
    case SortedSetHandle => SortedSets.NewSortedSet(p, st, path, [], true, 0, now).store
    case HashHandle => Hashes.NewDict(p, st, path, map[], true, 0).store
  }

  /** The payload text of a string key, `""` for any other key. */
  function PayloadText(st: Store, key: string): string {
    if Payload(st, key).Some? then Payload(st, key).value else ""
  }

  /** `RedisKeyDict.has_key` as written: the name is escaped with `inKey`
      only, so a name containing `.` is looked up as a deeper path. For a
      name without `.` it tests the entry's own key. */
  function HasKey(st: Store, dictKey: string, name: string): (b: bool)
    ensures '.' !in name ==> (b <==> ChildKey(dictKey, name) in st)
  {
    if '.' !in name then
      ReplaceAllKeepsChar(name, " ", "%20", '.');
      ListReplaceKeepsChar(name, ReservedStrings, Escapes, '.');
      ReplaceAllWithoutPattern(InKey(name), ".", DotEscape);
      dictKey + "." + InKey(name) in st
    else dictKey + "." + InKey(name) in st
  }

  /** `has_key` corrected to use the entry's own key. */
  function HasChild(st: Store, dictKey: string, name: string): (b: bool)
    ensures b <==> ChildKey(dictKey, name) in st
  {
    ChildKey(dictKey, name) in st
  }

  /** `RedisKeyDict.__getitem__`. The truth of a cached handle reads the
      store through that handle, so it is a parameter, `cachedTruthy`. */
  function GetItem(p: Pickler, st: Store, kd: KeyDict, name: string, cachedTruthy: bool, now: int): (r: Lookup)
    ensures r.found.None? <==> ChildKey(kd.key, name) !in st
    ensures r.found.None? ==> r.store == st && r.cache == kd.cache - {Segment(name)}
    ensures r.found.Some? && Segment(name) in kd.cache && cachedTruthy ==>
              r == Lookup(st, kd.cache, Some(kd.cache[Segment(name)]))
    ensures r.found.Some? && !(Segment(name) in kd.cache && cachedTruthy) ==>
              var path := ChildKey(kd.key, name);
              var kind := ClassifyChild(KindOf(st, path), PayloadText(st, path));
              && r.found == Some(kind)
              && r.cache == kd.cache[Segment(name) := kind]
  {
    var seg := Segment(name);
    if !HasKey(st, kd.key, seg) then Lookup(st, kd.cache - {seg}, None)
    else if seg in kd.cache && cachedTruthy then Lookup(st, kd.cache, Some(kd.cache[seg]))
    else
      var path := kd.key + "." + seg;
      var kind := ClassifyChild(KindOf(st, path), PayloadText(st, path));
      Lookup(ConstructChild(p, st, kind, path, now), kd.cache[seg := kind], Some(kind))
  }

  /** `RedisKeyDict.get` as written: when the code's `has_key` holds, the
      entry is read with `__getitem__`, which raises `KeyError` if the
      entry's own key is missing; otherwise nothing (the caller's default).
      For a name without `.`, it finds exactly the entries that exist. The
      second component is the handle's cache afterwards: `__getitem__` drops
      the entry from it before raising, so the error carries that cache. */
  function Get(p: Pickler, st: Store, kd: KeyDict, name: string, cachedTruthy: bool, now: int)
    : (r: (Result<Lookup>, map<string, HandleKind>))
    ensures !HasKey(st, kd.key, name) ==> r == (Ok(Lookup(st, kd.cache, None)), kd.cache)
    ensures HasKey(st, kd.key, name) && ChildKey(kd.key, name) !in st ==>
              r == (Err(KeyMissing), kd.cache - {Segment(name)})
    ensures r.0.Ok? ==> r.1 == r.0.value.cache
    ensures r.0.Ok? && r.0.value.found.Some? ==> r.0.value == GetItem(p, st, kd, name, cachedTruthy, now)
    ensures '.' !in name ==> r.0.Ok? && (r.0.value.found.Some? <==> ChildKey(kd.key, name) in st)
  {
    if HasKey(st, kd.key, name) then
      var l := GetItem(p, st, kd, name, cachedTruthy, now);
      if l.found.None? then (Err(KeyMissing), l.cache) else (Ok(l), l.cache)
    else (Ok(Lookup(st, kd.cache, None)), kd.cache)
  }

  /** `get` on the corrected `has_key`: the entry handle's class, or
      nothing (the caller's default). */
  function GetCorrected(p: Pickler, st: Store, kd: KeyDict, name: string, cachedTruthy: bool, now: int): (r: Lookup)
    ensures r.found.Some? <==> HasChild(st, kd.key, name)
    ensures r.found.None? ==> r.store == st && r.cache == kd.cache
  {
    if HasChild(st, kd.key, name) then GetItem(p, st, kd, name, cachedTruthy, now)
    else Lookup(st, kd.cache, None)
  }

  /** What `__setitem__` does with the handle for the new value. */
  datatype SetPlan =
    | ResetCached(kind: HandleKind)      // the cached handle has the value's class: reset it
    | CreateThenReset(kind: HandleKind)  // construct a handle of the class, cache it, reset it
    | Refused                            // `RedisPickledDict` takes no `expires`: a `TypeError`

  /** The handle choice of `RedisKeyDict.__setitem__`, and the new cache. */
  function PlanSetItem(kd: KeyDict, name: string, v: Value): (r: (SetPlan, map<string, HandleKind>))
    ensures var seg := Segment(name);
            && (r.0.ResetCached? <==> seg in kd.cache && kd.cache[seg] == ShapeKind(v))
            && (r.0.Refused? <==> !(seg in kd.cache && kd.cache[seg] == ShapeKind(v)) && v.PickledDictRef?)
            && (!r.0.Refused? ==> r.0.kind == ShapeKind(v))
            && (r.0.CreateThenReset? ==> r.1 == kd.cache[seg := ShapeKind(v)])
            && (!r.0.CreateThenReset? ==> r.1 == kd.cache)
  {
    var seg := Segment(name);
    var kind := ShapeKind(v);
    if seg in kd.cache && kd.cache[seg] == kind then (ResetCached(kind), kd.cache)
    else if kind == PickledDictHandle then (Refused, kd.cache)
    else (CreateThenReset(kind), kd.cache[seg := kind])
  }

  /** `RedisKeyDict.keys()`: the store keys matching `<map key>.*`, with the
      prefix cut off and unescaped, keeping those without a `.` (direct
      entries). The store returns them in no particular order. */
  function EntryNames(st: Store, dictKey: string): (r: set<string>)
    ensures forall n :: n in r ==> '.' !in n
    ensures forall n :: n in r <==>
              exists k :: k in st && dictKey + "." <= k && OutKey(k[|dictKey| + 1..]) == n && '.' !in n
  {
    set k | k in st && dictKey + "." <= k && '.' !in OutKey(k[|dictKey| + 1..]) :: OutKey(k[|dictKey| + 1..])
  }

  // ---------------------------------------------------------------- properties

  /** A segment has no reserved character and no `.`, so `inKey` leaves it
      as it is. */
  lemma SegmentIsFixed(name: string)
    ensures Unreserved(Segment(name)) && '.' !in Segment(name)
    ensures InKey(Segment(name)) == Segment(name)
  {
    var s := InKey(name);
    InKeyUnreserved(name);
    var seg := Segment(name);
    forall i | 0 <= i < |seg|
      ensures seg[i] !in Reserved
    {
      var c := seg[i];
      if c in Reserved {
        ReplaceAllKeepsChar(s, ".", DotEscape, c);
        assert false;
      }
    }
    ReplaceAllRemovesPattern(s);
    InKeyFixesUnreserved(seg);
  }

  /** After replacing every `.`, none is left. */
  lemma {:induction false} ReplaceAllRemovesPattern(s: string)
    ensures '.' !in ReplaceAll(s, ".", DotEscape)
    decreases |s|
  {
    if |s| > 0 {
      ReplaceAllRemovesPattern(s[|"."|..]);
      ReplaceAllRemovesPattern(s[1..]);
    }
  }

  /** The precedence of the payload classifier on the kind and text each
      shape's handle leaves on a key it has just created: they classify back
      to that shape, provided a string's text does not look like another
      shape and an integer is not negative. An empty collection leaves no
      key, and a map written over an existing string key leaves that string
      in place, so neither is covered. */
  lemma ShapeSurvivesReload(p: Pickler, v: Value)
    requires v.Str? ==> !LooksTyped(v.s)
    requires v.Int? ==> v.i >= 0
    ensures ClassifyChild(WrittenKind(v), WrittenPayload(p, v)) == ShapeKind(v)
  {
    assert PickleTag[0] == '<' && !IsDigit('<');
    assert SnapshotTag[1] == 'v' && PickleTag[1] == 'p';
    match v
    case Int(i) =>
      DecimalIsDigitsIffNatural(i);
      if !InInt64(i) {
        var s := Encode(p, v);
        assert s[0] == '<';
      }
    case Bool(b) =>
      var s := BooleanPayload(b);
      assert s[0] == 'T' || s[0] == 'F';
      assert !IsDigit(s[0]);
    case PickledDictRef(_) =>
      var s := SnapshotEncode(p, v);
      assert s[0] == '<' && s[1] == 'v';
    case DictValue(_) =>
      assert DictMarker[0] == '<' && DictMarker[1] == 'd';
    case Str(_) =>
    case ListValue(_) =>
    case SortedSetValue(_) =>
    case SetValue(_) =>
    case NoneValue =>
      var s := Encode(p, v);
      assert s[0] == '<';
    case Other(_) =>
      var s := Encode(p, v);
      assert s[0] == '<';
  }

  /** A negative integer child is read back as a string handle: its text
      fails the classifier's digits test. */
  lemma NegativeIntegerReloadsAsString(i: int)
    requires i < 0
    ensures ClassifyChild(KString, IntegerPayload(i)) == StringHandle
  {
    DecimalIsDigitsIffNatural(i);
    assert IntegerPayload(i)[0] == '-';
  }

  /** Reading a child whose key holds a hash makes an object handle, whose
      construction discards the hash and leaves the empty string. */
  lemma HashChildIsWipedOnRead(p: Pickler, st: Store, kd: KeyDict, name: string, now: int)
    requires Unreserved(kd.key)
    requires KindOf(st, ChildKey(kd.key, name)) == KHash
    ensures var r := GetItem(p, st, kd, name, false, now);
            && r.found == Some(ObjectHandle)
            && Payload(r.store, ChildKey(kd.key, name)) == Some("")
  {
    var path := ChildKey(kd.key, name);
  }

  /** Reading a child of any kind but a hash constructs a handle that keeps
      the child as it is. */
  lemma ReadKeepsOtherChildren(p: Pickler, st: Store, kd: KeyDict, name: string, cachedTruthy: bool, now: int)
    requires Unreserved(kd.key)
    requires ChildKey(kd.key, name) in st && KindOf(st, ChildKey(kd.key, name)) != KHash
    ensures GetItem(p, st, kd, name, cachedTruthy, now).store == st
  {
    var path := ChildKey(kd.key, name);
    var kind := ClassifyChild(KindOf(st, path), PayloadText(st, path));
    if IsDigits(PayloadText(st, path)) {
      assert IsIntegerLiteral(PayloadText(st, path));
    }
    assert TypeOk(kind, st, path);
  }

  /** With the corrected test, `get` finds exactly the entries that exist
      and reads them as `__getitem__` does. It agrees with the code's `get`
      on every name without `.`, and where the code's test misses an
      existing entry, the code returns the default while the corrected
      `get` returns the entry. */
  lemma GetFindsEveryEntry(p: Pickler, st: Store, kd: KeyDict, name: string, cachedTruthy: bool, now: int)
    ensures GetCorrected(p, st, kd, name, cachedTruthy, now).found.Some? <==> ChildKey(kd.key, name) in st
    ensures ChildKey(kd.key, name) in st ==>
              GetCorrected(p, st, kd, name, cachedTruthy, now) == GetItem(p, st, kd, name, cachedTruthy, now)
    ensures '.' !in name ==> Get(p, st, kd, name, cachedTruthy, now).0 == Ok(GetCorrected(p, st, kd, name, cachedTruthy, now))
    ensures ChildKey(kd.key, name) in st && !HasKey(st, kd.key, name) ==>
              && Get(p, st, kd, name, cachedTruthy, now).0 == Ok(Lookup(st, kd.cache, None))
              && GetCorrected(p, st, kd, name, cachedTruthy, now).found.Some?
  {
  }

  /** For names without a `.`, the code's `has_key` agrees with the
      corrected one. */
  lemma HasKeyAgreesWithoutDots(st: Store, dictKey: string, name: string)
    requires '.' !in name
    ensures HasKey(st, dictKey, name) == HasChild(st, dictKey, name)
  {
    var s := InKey(name);
    ReplaceAllKeepsChar(name, " ", "%20", '.');
    ListReplaceKeepsChar(name, ReservedStrings, Escapes, '.');
    ReplaceAllWithoutPattern(s, ".", DotEscape);
  }

  /** As written, `has_key("a.b")` tests the key `<map>.a.b`, a grandchild
      path, while the entry `"a.b"` lives at `<map>.a%2eb`: with only that
      entry in the store the code says it is absent. */
  lemma DottedNameMissedAsWritten(dictKey: string, e: Entry)
    ensures var st := map[ChildKey(dictKey, "a.b") := e];
            && HasChild(st, dictKey, "a.b")
            && !HasKey(st, dictKey, "a.b")
  {
    var name := "a.b";
    assert Unreserved(name);
    InKeyFixesUnreserved(name);
    var t := "b";
    assert ReplaceAll(t, ".", DotEscape) == "b" by {
      assert !("." <= t) && t[1..] == "";
      assert ReplaceAll("", ".", DotEscape) == "";
    }
    assert name[1..] == ".b" && ".b"[1..] == t;
    assert ReplaceAll(".b", ".", DotEscape) == DotEscape + "b";
    assert ReplaceAll(name, ".", DotEscape) == "a" + DotEscape + "b";
    assert Segment(name) == "a%2eb";
    assert dictKey + "." + "a.b" != dictKey + "." + "a%2eb" by {
      var x := dictKey + "." + "a.b";
      var y := dictKey + "." + "a%2eb";
      assert x[|dictKey| + 2] == '.' && y[|dictKey| + 2] == '%';
    }
  }

  /** A direct entry whose name has neither `.` nor `%` is listed by `keys()`
      under its own name. */
  lemma KeysListsEntry(st: Store, dictKey: string, name: string)
    requires '.' !in name && '%' !in name
    requires ChildKey(dictKey, name) in st
    ensures name in EntryNames(st, dictKey)
  {
    var k := ChildKey(dictKey, name);
    ReplaceAllKeepsChar(name, " ", "%20", '.');
    ListReplaceKeepsChar(name, ReservedStrings, Escapes, '.');
    ReplaceAllWithoutPattern(InKey(name), ".", DotEscape);
    assert k[|dictKey| + 1..] == InKey(name);
    OutKeyInKey(name);
    assert dictKey + "." <= k;
  }

  /** A key two levels down — an entry of a nested map — never shows up in
      `keys()`: adding one changes nothing. */
  lemma KeysSkipGrandchildren(st: Store, dictKey: string, a: string, b: string, e: Entry)
    ensures EntryNames(st[dictKey + "." + a + "." + b := e], dictKey) == EntryNames(st, dictKey)
  {
    var g := dictKey + "." + a + "." + b;
    var rest := g[|dictKey| + 1..];
    assert rest == a + "." + b;
    assert rest[|a|] == '.';
    OutKeyKeepsDots(rest);
    var st' := st[g := e];
    forall n
      ensures n in EntryNames(st', dictKey) <==> n in EntryNames(st, dictKey)
    {
      if n in EntryNames(st', dictKey) {
        var k :| k in st' && dictKey + "." <= k && OutKey(k[|dictKey| + 1..]) == n && '.' !in n;
        assert k != g;
        assert k in st;
      }
      if n in EntryNames(st, dictKey) {
        var k :| k in st && dictKey + "." <= k && OutKey(k[|dictKey| + 1..]) == n && '.' !in n;
        assert k in st';
      }
    }
  }

  /** A fresh map over a missing key leaves the marker, which reads back as
      a nested map. */
  lemma NewKeyDictReadsBackAsMap(st: Store, rawKey: string)
    requires InKey(rawKey) !in st
    ensures var r := NewKeyDict(st, rawKey, 0);
            && Payload(r.1, InKey(rawKey)) == Some(DictMarker)
            && ClassifyChild(KindOf(r.1, InKey(rawKey)), DictMarker) == KeyDictHandle
  {
    assert DictMarker[0] == '<' && !IsDigit('<');
    assert DictMarker[1] == 'd' && PickleTag[1] == 'p' && SnapshotTag[1] == 'v';
  }
}

=== FILE: keys.dfy ===
/** Key escaping (`RedisItem.inKey` / `RedisItem.outKey`): the characters
    the store's key syntax reserves are replaced by `%xx` escapes on the way
    in and restored on the way out, using the table `KEY_REPLACEMENTS`.

    The proofs follow the replacement table one pair at a time: after the
    first `j` pairs of `inKey`, every reserved character of index below `j`
    has been escaped (`EscapeStage(k, j)`); after the first `j` pairs of
    `outKey` applied to an escaped key, every escape of index below `j` has
    been restored (`UnescapeStage(k, j)`). */
module Keys {
  import opened Text

  /** The reserved characters, in table order. */
  const Reserved: seq<char> := [' ', '(', ')', '[', ']']
  /** The same characters as one-character strings (the patterns of `inKey`). */
  const ReservedStrings: seq<string> := [" ", "(", ")", "[", "]"]
  /** Their escapes, in the same order. */
  const Escapes: seq<string> := ["%20", "%28", "%29", "%5b", "%5d"]

  /** No reserved character occurs in `s`. */
  predicate Unreserved(s: string) {
    forall i :: 0 <= i < |s| ==> s[i] !in Reserved
  }

  /** `inKey`: escape the reserved characters. The result has none left,
      and a key that had none is unchanged. */
  function InKey(key: string): (r: string)
    ensures Unreserved(r)
    ensures Unreserved(key) ==> r == key
  {
    EscapeStageZero(key);
    EscapeStagesCompose(key, 0);
    EscapeStageUnreserved(key);
    if Unreserved(key) then
      EscapeStageOfUnreserved(key);
      ListReplace(key, ReservedStrings, Escapes)
    else ListReplace(key, ReservedStrings, Escapes)
  }

  /** `outKey`: restore the reserved characters from their escapes. No `.`
      appears or disappears, and a key without `%` is unchanged. */
  function OutKey(key: string): (r: string)
    ensures '.' in r <==> '.' in key
    ensures '%' !in key ==> r == key
  {
    assert forall i :: 0 <= i < 5 ==> '.' !in Escapes[i] && '.' !in ReservedStrings[i];
    ListReplaceKeepsChar(key, Escapes, ReservedStrings, '.');
    TableShape();
    if '%' !in key then
      ListReplaceWithoutPatterns(key, Escapes, ReservedStrings);
      ListReplace(key, Escapes, ReservedStrings)
    else ListReplace(key, Escapes, ReservedStrings)
  }

  /** Two keys without reserved characters make one. */
  lemma UnreservedConcat(a: string, b: string)
    requires Unreserved(a) && Unreserved(b)
    ensures Unreserved(a + b)
  {
    forall i | 0 <= i < |a + b|
      ensures (a + b)[i] !in Reserved
    {
      if i < |a| { assert (a + b)[i] == a[i]; } else { assert (a + b)[i] == b[i - |a|]; }
    }
  }

  /** Position of `c` in the table, or 5 when `c` is not reserved. */
  function ReservedIndex(c: char): (i: nat)
    ensures i <= 5
    ensures i < 5 ==> Reserved[i] == c && ReservedStrings[i] == [c]
    ensures i == 5 <==> c !in Reserved
  {
    if c == ' ' then 0
    else if c == '(' then 1
    else if c == ')' then 2
    else if c == '[' then 3
    else if c == ']' then 4
    else 5
  }

  /** Facts about the table: the escapes are distinct three-character
      strings of the form `%xx` that contain no reserved character. */
  lemma TableShape()
    ensures forall i :: 0 <= i < 5 ==> |Escapes[i]| == 3 && Escapes[i][0] == '%'
    ensures forall i :: 0 <= i < 5 ==> Escapes[i][1] != '%' && Escapes[i][2] != '%'
    ensures forall i :: 0 <= i < 5 ==> Unreserved(Escapes[i])
    ensures forall i, j :: 0 <= i < 5 && 0 <= j < 5 && i != j ==> Escapes[i] != Escapes[j]
    ensures forall i :: 0 <= i < 5 ==> |ReservedStrings[i]| == 1 && ReservedStrings[i][0] == Reserved[i]
    ensures '%' !in Reserved
  {
    EscapesUnreserved();
  }

  lemma EscapesUnreserved()
    ensures forall i :: 0 <= i < 5 ==> Unreserved(Escapes[i])
  {
    assert Unreserved(Escapes[0]) && Unreserved(Escapes[1]) && Unreserved(Escapes[2]);
    assert Unreserved(Escapes[3]) && Unreserved(Escapes[4]);
  }

  function EscapedUpTo(c: char, j: nat): string
    requires j <= 5
  {
    var i := ReservedIndex(c);
    if i < j then Escapes[i] else [c]
  }

  /** The key after the first `j` pairs of `inKey`'s table have been applied. */
  function EscapeStage(k: string, j: nat): string
    requires j <= 5
    decreases |k|
  {
    if |k| == 0 then "" else EscapedUpTo(k[0], j) + EscapeStage(k[1..], j)
  }

  function UnescapedUpTo(c: char, j: nat): string
    requires j <= 5
  {
    var i := ReservedIndex(c);
    if i < j || i == 5 then [c] else Escapes[i]
  }

  /** The escaped key after the first `j` pairs of `outKey`'s table have been applied. */
  function UnescapeStage(k: string, j: nat): string
    requires j <= 5
    decreases |k|
  {
    if |k| == 0 then "" else UnescapedUpTo(k[0], j) + UnescapeStage(k[1..], j)
  }

  lemma {:induction false} EscapeStageZero(k: string)
    ensures EscapeStage(k, 0) == k
    decreases |k|
  {
    if |k| > 0 {
      EscapeStageZero(k[1..]);
      assert k == [k[0]] + k[1..];
    }
  }

  lemma {:induction false} UnescapeStageFive(k: string)
    ensures UnescapeStage(k, 5) == k
    decreases |k|
  {
    if |k| > 0 {
      UnescapeStageFive(k[1..]);
      assert k == [k[0]] + k[1..];
    }
  }

  lemma {:induction false} UnescapeStartsFromEscaped(k: string)
    ensures UnescapeStage(k, 0) == EscapeStage(k, 5)
    decreases |k|
  {
    if |k| > 0 {
      UnescapeStartsFromEscaped(k[1..]);
    }
  }

  /** Applying pair `j` of `inKey`'s table moves from stage `j` to stage `j + 1`. */
  lemma {:induction false} EscapeStageStep(k: string, j: nat)
    requires j < 5
    ensures ReplaceAll(EscapeStage(k, j), ReservedStrings[j], Escapes[j]) == EscapeStage(k, j + 1)
    decreases |k|
  {
    TableShape();
    if |k| > 0 {
      var x, rest := k[0], k[1..];
      var pat := ReservedStrings[j];
      var i := ReservedIndex(x);
      EscapeStageStep(rest, j);
      if i < j {
        assert Reserved[j] !in Escapes[i];
        ReplaceAllSkipsPrefix(Escapes[i], EscapeStage(rest, j), pat, Escapes[j]);
      } else if i == j {
        var s := EscapeStage(k, j);
        assert s == pat + EscapeStage(rest, j);
        assert pat <= s;
        assert s[|pat|..] == EscapeStage(rest, j);
      } else {
        assert x != Reserved[j];
        ReplaceAllSkipsPrefix([x], EscapeStage(rest, j), pat, Escapes[j]);
      }
    }
  }

  /** Applying pair `j` of `outKey`'s table moves from stage `j` to stage
      `j + 1`, provided the original key holds no `%`. */
  lemma {:induction false} UnescapeStageStep(k: string, j: nat)
    requires j < 5 && '%' !in k
    ensures ReplaceAll(UnescapeStage(k, j), Escapes[j], ReservedStrings[j]) == UnescapeStage(k, j + 1)
    decreases |k|
  {
    TableShape();
    if |k| > 0 {
      var x, rest := k[0], k[1..];
      var pat := Escapes[j];
      var i := ReservedIndex(x);
      assert x != '%';
      UnescapeStageStep(rest, j);
      var t := UnescapeStage(rest, j);
      if i < j || i == 5 {
        var s := [x] + t;
        assert s[0] == x && !(pat <= s);
        assert s[1..] == t;
      } else if i == j {
        var s := pat + t;
        assert pat <= s;
        assert s[|pat|..] == t;
      } else {
        ReplaceAllSkipsEscape(Escapes[i], t, pat, ReservedStrings[j]);
      }
    }
  }

  lemma {:induction false} EscapeStagesCompose(k: string, j: nat)
    requires j <= 5
    ensures ListReplace(EscapeStage(k, j), ReservedStrings[j..], Escapes[j..]) == EscapeStage(k, 5)
    decreases 5 - j
  {
    if j < 5 {
      EscapeStageStep(k, j);
      assert ReservedStrings[j..][1..] == ReservedStrings[j + 1..];
      assert Escapes[j..][1..] == Escapes[j + 1..];
      EscapeStagesCompose(k, j + 1);
    }
  }

  lemma {:induction false} UnescapeStagesCompose(k: string, j: nat)
    requires j <= 5 && '%' !in k
    ensures ListReplace(UnescapeStage(k, j), Escapes[j..], ReservedStrings[j..]) == UnescapeStage(k, 5)
    decreases 5 - j
  {
    TableShape();
    if j < 5 {
      UnescapeStageStep(k, j);
      assert ReservedStrings[j..][1..] == ReservedStrings[j + 1..];
      assert Escapes[j..][1..] == Escapes[j + 1..];
      UnescapeStagesCompose(k, j + 1);
    }
  }

  /** `inKey` escapes each reserved character independently of the others. */
  lemma InKeyIsEscapeStage(k: string)
    ensures InKey(k) == EscapeStage(k, 5)
  {
    EscapeStageZero(k);
    EscapeStagesCompose(k, 0);
  }

  lemma {:induction false} EscapeStageUnreserved(k: string)
    ensures Unreserved(EscapeStage(k, 5))
    decreases |k|
  {
    TableShape();
    if |k| > 0 {
      EscapeStageUnreserved(k[1..]);
      var piece := EscapedUpTo(k[0], 5);
      assert Unreserved(piece);
      var s := EscapeStage(k, 5);
      assert s == piece + EscapeStage(k[1..], 5);
      forall n | 0 <= n < |s|
        ensures s[n] !in Reserved
      {
        if n >= |piece| {
          assert s[n] == EscapeStage(k[1..], 5)[n - |piece|];
        }
      }
    }
  }

  lemma {:induction false} EscapeStageOfUnreserved(k: string)
    requires Unreserved(k)
    ensures EscapeStage(k, 5) == k
    decreases |k|
  {
    if |k| > 0 {
      assert k[0] !in Reserved;
      EscapeStageOfUnreserved(k[1..]);
      assert k == [k[0]] + k[1..];
    }
  }

  /** An escaped key contains none of the reserved characters. */
  lemma InKeyUnreserved(k: string)
    ensures Unreserved(InKey(k))
  {
    InKeyIsEscapeStage(k);
    EscapeStageUnreserved(k);
  }

  /** Escaping leaves a key without reserved characters unchanged, so
      escaping twice is escaping once. */
  lemma InKeyFixesUnreserved(k: string)
    ensures Unreserved(k) ==> InKey(k) == k
    ensures InKey(InKey(k)) == InKey(k)
  {
    if Unreserved(k) {
      InKeyIsEscapeStage(k);
      EscapeStageOfUnreserved(k);
    }
    InKeyUnreserved(k);
    InKeyIsEscapeStage(InKey(k));
    EscapeStageOfUnreserved(InKey(k));
  }

  /** Unescaping an escaped key gives the key back, for every key without `%`. */
  lemma OutKeyInKey(k: string)
    requires '%' !in k
    ensures OutKey(InKey(k)) == k
  {
    InKeyIsEscapeStage(k);
    UnescapeStartsFromEscaped(k);
    UnescapeStagesCompose(k, 0);
    UnescapeStageFive(k);
  }

  /** A key holding an escape sequence of its own does not survive the
      round trip: `"%20"` comes back as `" "`. */
  lemma PercentKeyDoesNotRoundTrip()
    ensures InKey("%20") == "%20"
    ensures OutKey(InKey("%20")) == " "
  {
    PercentKeyIsUnreserved();
    InKeyFixesUnreserved("%20");
    PercentKeyUnescapes();
  }

  lemma PercentKeyIsUnreserved()
    ensures Unreserved("%20")
  {
    var k := "%20";
    assert k[0] == '%' && k[1] == '2' && k[2] == '0';
  }

  lemma PercentKeyUnescapes()
    ensures OutKey("%20") == " "
  {
    var k := "%20";
    assert ReplaceAll(k, Escapes[0], ReservedStrings[0]) == " " by {
      assert Escapes[0] == k && ReservedStrings[0] == " ";
      assert k[3..] == "";
      assert ReplaceAll("", "%20", " ") == "";
    }
    TableShape();
    ListReplaceWithoutPatterns(" ", Escapes[1..], ReservedStrings[1..]);
  }

  /** Unescaping neither adds nor removes a `.`, the path separator of nested maps. */
  lemma OutKeyKeepsDots(s: string)
    ensures '.' in OutKey(s) <==> '.' in s
  {
    assert forall i :: 0 <= i < 5 ==> '.' !in Escapes[i] && '.' !in ReservedStrings[i];
    ListReplaceKeepsChar(s, Escapes, ReservedStrings, '.');
  }

  /** Unescaping leaves a key without `%` as it is. */
  lemma OutKeyWithoutPercent(s: string)
    requires '%' !in s
    ensures OutKey(s) == s
  {
    TableShape();
    ListReplaceWithoutPatterns(s, Escapes, ReservedStrings);
  }
}

=== FILE: lists.dfy ===
/** `RedisList`: a handle on a remote list whose items are codec payloads.
    Every mutation refreshes the client-tracked expiration. */
module Lists {
  import opened Outcomes
  import opened Keys
  import opened Codec
  import opened Store
  import opened Expiration
  import opened Handles

  /** RPUSH of one encoded value followed by the refresh, on a key known to
      hold a list or nothing. */
  function PushTail(p: Pickler, st: Store, h: Iterable, v: Value, now: int): (r: Tracked)
    requires ListOrAbsent(st, h.key)
    ensures ListOrAbsent(r.store, h.key) && r.handle.key == h.key
    ensures Live(h.tracker, now) ==>
              && Live(r.handle.tracker, now)
              && ListItems(r.store, h.key) == ListItems(st, h.key) + [Encode(p, v)]
    ensures !Live(h.tracker, now) ==> h.key !in r.store && r.handle.tracker.time == 0
    ensures SameElsewhere(st, r.store, h.key)
  {
    var pushed := PutList(st, h.key, ListItems(st, h.key) + [Encode(p, v)]);
    HandleExpiration(pushed, h, now)
  }

  /** `RedisList.append`: replies with the new length. */
  function Append(p: Pickler, st: Store, h: Iterable, v: Value, now: int): (r: Result<Step<nat>>)
    ensures r.Err? <==> !ListOrAbsent(st, h.key)
    ensures r.Ok? ==> r.value.out == |ListItems(st, h.key)| + 1
    ensures r.Ok? ==> r.value.store == PushTail(p, st, h, v, now).store
                      && r.value.handle == PushTail(p, st, h, v, now).handle
  {
    if !ListOrAbsent(st, h.key) then Err(WrongType)
    else
      var t := PushTail(p, st, h, v, now);
      var n: nat := |ListItems(st, h.key)| + 1;
      Ok(Step(t.store, t.handle, n))
  }

  /** `RedisList.pop`: take and decode the head; nothing from an empty list. */
  function Pop(p: Pickler, st: Store, h: Iterable, now: int): (r: Result<Step<Option<Value>>>)
    ensures r.Err? <==> !ListOrAbsent(st, h.key)
    ensures r.Ok? ==> ListOrAbsent(r.value.store, h.key) && r.value.handle.key == h.key
    ensures r.Ok? ==> (r.value.out.Some? <==> |ListItems(st, h.key)| > 0)
    ensures r.Ok? && |ListItems(st, h.key)| > 0 ==>
              r.value.out == Some(Decode(p, ListItems(st, h.key)[0]))
    ensures r.Ok? && Live(h.tracker, now) ==>
              && Live(r.value.handle.tracker, now)
              && ListItems(r.value.store, h.key) ==
                 (if |ListItems(st, h.key)| > 0 then ListItems(st, h.key)[1..] else [])
  {
    var popped :- LPop(st, h.key);
    var t := HandleExpiration(popped.store, h, now);
    var out := match popped.out case None => None case Some(s) => Some(Decode(p, s));
    Ok(Step(t.store, t.handle, out))
  }

  /** `RedisList.remove`: every occurrence of the value's payload goes;
      replies with how many. */
  function Remove(p: Pickler, st: Store, h: Iterable, v: Value, now: int): (r: Result<Step<nat>>)
    ensures r.Err? <==> !ListOrAbsent(st, h.key)
    ensures r.Ok? ==> ListOrAbsent(r.value.store, h.key) && r.value.handle.key == h.key
    ensures r.Ok? ==> r.value.out == multiset(ListItems(st, h.key))[Encode(p, v)]
    ensures r.Ok? && Live(h.tracker, now) ==>
              ListItems(r.value.store, h.key) == Without(ListItems(st, h.key), Encode(p, v))
  {
    var removed :- LRem(st, h.key, Encode(p, v));
    var t := HandleExpiration(removed.store, h, now);
    Ok(Step(t.store, t.handle, removed.out))
  }

  /** `RedisList.value()` / `asList`: the decoded items, head first. */
  function Items(p: Pickler, st: Store, key: string): (r: Result<seq<Value>>)
    ensures r.Err? <==> !ListOrAbsent(st, key)
    ensures r.Ok? ==> r.value == DecodeAll(p, ListItems(st, key))
  {
    if ListOrAbsent(st, key) then Ok(DecodeAll(p, ListItems(st, key))) else Err(WrongType)
  }

  /** The loop of `RedisList.resetValue`: one `append` per value, in order. */
  function AppendEach(p: Pickler, st: Store, h: Iterable, xs: seq<Value>, now: int): (r: Tracked)
    requires ListOrAbsent(st, h.key)
    ensures ListOrAbsent(r.store, h.key) && r.handle.key == h.key
    ensures Live(h.tracker, now) ==>
              && Live(r.handle.tracker, now)
              && ListItems(r.store, h.key) == ListItems(st, h.key) + EncodeAll(p, xs)
    ensures |xs| > 0 ==> Live(r.handle.tracker, now)
    ensures SameElsewhere(st, r.store, h.key)
    decreases |xs|
  {
    if |xs| == 0 then Tracked(st, h)
    else
      var t := PushTail(p, st, h, xs[0], now);
      var r := AppendEach(p, t.store, t.handle, xs[1..], now);
      assert Live(t.handle.tracker, now);
      assert EncodeAll(p, xs) == [Encode(p, xs[0])] + EncodeAll(p, xs[1..]);
      SameElsewhereChain(st, t.store, r.store, h.key);
      r
  }

  /** `RedisList.resetValue`: delete the key, append every value, refresh.
      While the tracked expiration has time left, the list is exactly the
      encoded values in order. */
  function Reset(p: Pickler, st: Store, h: Iterable, xs: seq<Value>, now: int): (r: Tracked)
    ensures ListOrAbsent(r.store, h.key) && r.handle.key == h.key
    ensures Live(h.tracker, now) ==> Live(r.handle.tracker, now) && ListItems(r.store, h.key) == EncodeAll(p, xs)
    ensures SameElsewhere(st, r.store, h.key)
  {
    var t := AppendEach(p, Delete(st, h.key), h, xs, now);
    RefreshAfterAppendEach(p, st, h, xs, now);
    HandleExpiration(t.store, t.handle, now)
  }

  /** The facts about `Reset`, on the terms of its body. */
  lemma RefreshAfterAppendEach(p: Pickler, st: Store, h: Iterable, xs: seq<Value>, now: int)
    ensures var t := AppendEach(p, Delete(st, h.key), h, xs, now);
            var r := HandleExpiration(t.store, t.handle, now);
            && ListOrAbsent(r.store, h.key) && r.handle.key == h.key
            && (Live(h.tracker, now) ==> Live(r.handle.tracker, now) && ListItems(r.store, h.key) == EncodeAll(p, xs))
            && SameElsewhere(st, r.store, h.key)
  {
    var t := AppendEach(p, Delete(st, h.key), h, xs, now);
    assert ListItems(Delete(st, h.key), h.key) == [];
    assert [] + EncodeAll(p, xs) == EncodeAll(p, xs);
    RefreshKeepsContents(t.store, t.handle, now);
    SameElsewhereChain(st, Delete(st, h.key), t.store, h.key);
    SameElsewhereChain(st, t.store, HandleExpiration(t.store, t.handle, now).store, h.key);
  }

  /** `RedisList.__init__`: an empty default turns creation off; the
      tracker is started; then the common construction protocol runs with
      `resetValue` as the re-creation step. */
  function NewList(p: Pickler, st: Store, rawKey: string, default: seq<Value>, create: bool,
                   expires: int, now: int): (r: Constructed)
    ensures r.handle.key == InKey(rawKey)
    ensures r.coercion == Kept <==> TypeOk(ListHandle, st, InKey(rawKey))
    ensures r.coercion == Kept && expires == 0 ==> r.store == st
    ensures ListOrAbsent(r.store, InKey(rawKey)) || r.coercion == Kept
    ensures SameElsewhere(st, r.store, InKey(rawKey))
  {
    var create' := create && |default| > 0;
    var h := Iterable(InKey(rawKey), StartTracker(st, rawKey, create', now));
    var o := Open(st, ListHandle, h.key, create');
    var t := if o.coercion == Reinitialized then Reset(p, o.store, h, default, now)
             else Tracked(o.store, h);
    var st' := if expires != 0 then Expire(t.store, h.key, expires) else t.store;
    SameElsewhereChain(st, o.store, t.store, h.key);
    SameElsewhereChain(st, t.store, st', h.key);
    Constructed(st', t.handle, o.coercion)
  }

  // ---------------------------------------------------------------- properties

  /** Reset stores exactly the encoded values, in order, while the tracked
      expiration has time left. */
  lemma ResetStoresValuesInOrder(p: Pickler, st: Store, h: Iterable, xs: seq<Value>, now: int)
    requires Live(h.tracker, now)
    ensures var r := Reset(p, st, h, xs, now);
            ListItems(r.store, h.key) == EncodeAll(p, xs) && Live(r.handle.tracker, now)
  {
    var t := AppendEach(p, Delete(st, h.key), h, xs, now);
    assert ListItems(t.store, h.key) == [] + EncodeAll(p, xs);
  }

  /** When the tracked expiration has already run out, the first append's
      refresh clears the key, so reset leaves every value but the first. */
  lemma ResetAfterExpiryDropsFirst(p: Pickler, st: Store, h: Iterable, xs: seq<Value>, now: int)
    requires !Live(h.tracker, now) && |xs| > 0
    ensures ListItems(Reset(p, st, h, xs, now).store, h.key) == EncodeAll(p, xs[1..])
  {
    var st0 := Delete(st, h.key);
    var t := PushTail(p, st0, h, xs[0], now);
    assert ListItems(t.store, h.key) == [];
    assert Live(t.handle.tracker, now);
    var u := AppendEach(p, t.store, t.handle, xs[1..], now);
    assert ListItems(u.store, h.key) == [] + EncodeAll(p, xs[1..]);
    assert AppendEach(p, st0, h, xs, now) == u;
  }

  /** Reading a reset list gives back the values, when all are faithful. */
  lemma ResetReadsBack(p: Pickler, st: Store, h: Iterable, xs: seq<Value>, now: int)
    requires RoundTrips(p) && Live(h.tracker, now)
    requires forall i :: 0 <= i < |xs| ==> Faithful(xs[i])
    ensures Items(p, Reset(p, st, h, xs, now).store, h.key) == Ok(xs)
  {
    ResetStoresValuesInOrder(p, st, h, xs, now);
    var r := Reset(p, st, h, xs, now);
    var ys := DecodeAll(p, ListItems(r.store, h.key));
    forall i | 0 <= i < |xs|
      ensures ys[i] == xs[i]
    {
      DecodeEncode(p, xs[i]);
    }
    assert ys == xs;
  }

  /** A list handle with an empty default never creates its key, whatever
      `create` says; construction only ever removes a key of the wrong kind. */
  lemma EmptyDefaultNeverCreates(p: Pickler, st: Store, rawKey: string, create: bool, expires: int, now: int)
    ensures var r := NewList(p, st, rawKey, [], create, expires, now);
            && r.coercion != Reinitialized
            && (InKey(rawKey) !in st ==> InKey(rawKey) !in r.store)
            && r.handle.tracker.time == 0
  {
  }

  /** Constructing with `create` and a non-empty default over a key of
      another kind leaves the key holding exactly the encoded default. */
  lemma NewListCoercesWrongKind(p: Pickler, st: Store, rawKey: string, default: seq<Value>, now: int)
    requires |default| > 0
    requires !TypeOk(ListHandle, st, InKey(rawKey))
    ensures var r := NewList(p, st, rawKey, default, true, 0, now);
            && r.coercion == Reinitialized
            && ListOrAbsent(r.store, InKey(rawKey))
            && ListItems(r.store, InKey(rawKey)) == EncodeAll(p, default)
  {
    var h := Iterable(InKey(rawKey), StartTracker(st, rawKey, true, now));
    assert Live(h.tracker, now);
    var o := Open(st, ListHandle, h.key, true);
    ResetStoresValuesInOrder(p, o.store, h, default, now);
  }

  /** The list is first-in first-out: after appending `x` to a list `q`,
      popping yields the head of `q`, or `x` itself when `q` was empty, and
      leaves the rest in order. This holds whenever the tracked expiration
      has not fired by the time of the pop; when it has, the key is gone. */
  lemma AppendThenPopIsFifo(p: Pickler, st: Store, h: Iterable, x: Value, t1: int, t2: int)
    requires ListOrAbsent(st, h.key)
    requires t1 <= t2 && Live(h.tracker, t2)
    ensures Append(p, st, h, x, t1).Ok?
    ensures var s1 := Append(p, st, h, x, t1).value;
            var q := ListItems(st, h.key);
            && Pop(p, s1.store, s1.handle, t2).Ok?
            && Pop(p, s1.store, s1.handle, t2).value.out == Some(Decode(p, (q + [Encode(p, x)])[0]))
            && ListItems(Pop(p, s1.store, s1.handle, t2).value.store, h.key) == (q + [Encode(p, x)])[1..]
  {
    RefreshStaysLive(PutList(st, h.key, ListItems(st, h.key) + [Encode(p, x)]), h, t1, t2);
  }

  /** `append(x); append(y); pop()` returns the head of the list, or `x`
      when the list was empty, and leaves the remaining items followed by
      `y`, as long as the tracked expiration has not fired by the pop. */
  lemma AppendAppendPop(p: Pickler, st: Store, h: Iterable, x: Value, y: Value, t1: int, t2: int, t3: int)
    requires RoundTrips(p) && Faithful(x)
    requires ListOrAbsent(st, h.key)
    requires t1 <= t2 <= t3 && Live(h.tracker, t3)
    ensures Append(p, st, h, x, t1).Ok?
    ensures var s1 := Append(p, st, h, x, t1).value;
            var q := ListItems(st, h.key);
            && Append(p, s1.store, s1.handle, y, t2).Ok?
            && var s2 := Append(p, s1.store, s1.handle, y, t2).value;
               && Pop(p, s2.store, s2.handle, t3).Ok?
               && Pop(p, s2.store, s2.handle, t3).value.out ==
                  Some(if |q| == 0 then x else Decode(p, q[0]))
               && ListItems(Pop(p, s2.store, s2.handle, t3).value.store, h.key) ==
                  (if |q| == 0 then [] else q[1..] + [Encode(p, x)]) + [Encode(p, y)]
  {
    DecodeEncode(p, x);
    var q := ListItems(st, h.key);
    RefreshStaysLive(PutList(st, h.key, q + [Encode(p, x)]), h, t1, t3);
    var s1 := Append(p, st, h, x, t1).value;
    assert ListItems(s1.store, h.key) == q + [Encode(p, x)];
    AppendThenPopIsFifo(p, s1.store, s1.handle, y, t2, t3);
    var q1 := q + [Encode(p, x)];
    assert (q1 + [Encode(p, y)])[0] == q1[0];
    assert (q1 + [Encode(p, y)])[1..] == q1[1..] + [Encode(p, y)];
  }
}

=== FILE: lock.dfy ===
/** `RedisLock`: a lock shared between processes through a store list of
    waiter tokens (first token = holder) and an integer recording when the
    lock was last acquired. The sleeps between polls take no time here; what
    other processes do meanwhile is given as the sequence of queues each
    poll reads. */
module Locks {
  import opened Store

  /** The lock's remote state: the waiter queue and the last acquisition
      time in whole seconds (0: never acquired, or the integer's default). */
  datatype LockState = LockState(queue: seq<string>, last: int)

  /** What `acquire` returns: `True`, `RESULT_TIMEOUT` or `RESULT_LOSTKEY`. */
  datatype AcquireResult = Acquired | TimedOut | LostKey

  /** The longest a holder may keep the lock, in seconds. */
  const MaxKeyhold: int := 60
  /** A timeout is clamped to this many seconds. */
  const MaxTimeout: int := MaxKeyhold - 2

  /** `checkLastAcquireTime`: when the lock was acquired more than
      `MaxKeyhold` seconds ago, the holder is presumed dead — the queue is
      emptied and the acquisition time set to now. Returns the new state and
      whether the lock was left alone. */
  function StaleCheck(s: LockState, now: int): (r: (LockState, bool))
    ensures !r.1 <==> s.last != 0 && now - s.last > MaxKeyhold
    ensures r.1 ==> r.0 == s
    ensures !r.1 ==> r.0 == LockState([], now)
  {
    if s.last != 0 && now - s.last > MaxKeyhold then (LockState([], now), false)
    else (s, true)
  }

  /** The number of polls of `acquire`: `int(timeout / 0.5)` after clamping
      to `MaxTimeout`; no poll at all for a timeout that is not positive. */
  function PollCount(timeout: int): (n: nat)
    ensures n <= 2 * MaxTimeout
    ensures timeout <= 0 ==> n == 0
    ensures 0 < timeout <= MaxTimeout ==> n == 2 * timeout
    ensures timeout >= MaxTimeout ==> n == 2 * MaxTimeout
  {
    var t := if timeout > MaxTimeout then MaxTimeout else timeout;
    if t <= 0 then 0 else 2 * t
  }

  /** What one poll sees in the queue it read. */
  datatype Sight = Gone | AtHead | Behind

  function Look(queue: seq<string>, token: string): (r: Sight)
    ensures r == Gone <==> token !in queue
    ensures r == AtHead <==> |queue| > 0 && queue[0] == token
  {
    if token !in queue then Gone
    else if queue[0] == token then AtHead
    else Behind
  }

  /** The polling loop of `acquire`. `views[i]` is the queue poll `i`
      reads; the last view is the queue the final `remove` works on after
      the time runs out. Losing the token removes it from the queue read;
      reaching the head records `now` as the acquisition time. */
  function Poll(views: seq<seq<string>>, token: string, last: int, now: int): (r: (LockState, AcquireResult))
    requires |views| > 0
    ensures r.1 != Acquired ==> r.0.last == last && token !in r.0.queue
    ensures r.1 == Acquired ==> r.0.last == now && |r.0.queue| > 0 && r.0.queue[0] == token
    decreases |views|
  {
    if |views| == 1 then (LockState(Without(views[0], token), last), TimedOut)
    else
      match Look(views[0], token)
      case Gone => (LockState(Without(views[0], token), last), LostKey)
      case AtHead => (LockState(views[0], now), Acquired)
      case Behind => Poll(views[1..], token, last, now)
  }

  /** The queue after the stale check and the append of `token`. */
  function Joined(s: LockState, token: string, now: int): (q: seq<string>)
    ensures |q| > 0 && q[|q| - 1] == token
  {
    StaleCheck(s, now).0.queue + [token]
  }

  /** `acquire` with no other process touching the lock: every poll reads
      the queue as it was just after this caller's append. */
  function Acquire(s: LockState, token: string, timeout: int, now: int): (r: (LockState, AcquireResult))
    ensures r.1 != LostKey
    ensures r.1 == Acquired <==> PollCount(timeout) > 0 && Joined(s, token, now)[0] == token
    ensures r.1 == Acquired ==> r.0 == LockState(Joined(s, token, now), now)
    ensures r.1 == TimedOut ==>
              r.0 == LockState(Without(StaleCheck(s, now).0.queue, token), StaleCheck(s, now).0.last)
  {
    var s1 := StaleCheck(s, now).0;
    var q := Joined(s, token, now);
    var views := seq(PollCount(timeout) + 1, _ => q);
    PollSameView(q, views, token, s1.last, now);
    WithoutConcat(s1.queue, [token], token);
    Poll(views, token, s1.last, now)
  }

  /** `release`: `False` when somebody else holds the lock, `True` when the
      caller does or the queue is empty; every occurrence of the token is
      removed either way. */
  function Release(s: LockState, token: string): (r: (LockState, bool))
    ensures r.1 <==> |s.queue| == 0 || s.queue[0] == token
    ensures r.0.last == s.last && token !in r.0.queue
    ensures forall y :: y != token ==> multiset(r.0.queue)[y] == multiset(s.queue)[y]
    ensures r.0.queue == Without(s.queue, token)
    ensures forall k :: 0 <= k <= |s.queue| ==>
              r.0.queue == Without(s.queue[..k], token) + Without(s.queue[k..], token)
  {
    WithoutAtEveryCut(s.queue, token);
    (LockState(Without(s.queue, token), s.last), !(|s.queue| > 0 && s.queue[0] != token))
  }

  // ---------------------------------------------------------------- properties

  /** Polling a queue that never changes ends on the first poll, unless
      the token waits behind another, in which case the time runs out. */
  lemma {:induction false} PollSameView(q: seq<string>, views: seq<seq<string>>, token: string, last: int, now: int)
    requires |views| > 0 && forall i :: 0 <= i < |views| ==> views[i] == q
    ensures var r := Poll(views, token, last, now);
            && (r.1 == Acquired <==> |views| > 1 && |q| > 0 && q[0] == token)
            && (r.1 == LostKey <==> |views| > 1 && token !in q)
            && (r.1 == Acquired ==> r.0 == LockState(q, now))
            && (r.1 != Acquired ==> r.0 == LockState(Without(q, token), last))
    decreases |views|
  {
    if |views| > 1 && Look(q, token) == Behind {
      PollSameView(q, views[1..], token, last, now);
    }
  }

  /** The outcome of polling, in terms of the first poll that sees the
      token gone or at the head: all earlier polls saw it waiting behind. */
  lemma {:induction false} PollDecidedAt(views: seq<seq<string>>, token: string, last: int, now: int, k: nat)
    requires k < |views| - 1
    requires forall i :: 0 <= i < k ==> Look(views[i], token) == Behind
    requires Look(views[k], token) != Behind
    ensures Look(views[k], token) == AtHead ==>
              Poll(views, token, last, now) == (LockState(views[k], now), Acquired)
    ensures Look(views[k], token) == Gone ==>
              Poll(views, token, last, now) == (LockState(views[k], last), LostKey)
    decreases k
  {
    if k > 0 {
      PollDecidedAt(views[1..], token, last, now, k - 1);
    }
  }

  /** If every poll but the last sees the token waiting behind another, the
      caller times out and leaves the queue without its token. */
  lemma {:induction false} PollTimesOut(views: seq<seq<string>>, token: string, last: int, now: int)
    requires |views| > 0
    requires forall i :: 0 <= i < |views| - 1 ==> Look(views[i], token) == Behind
    ensures Poll(views, token, last, now) ==
              (LockState(Without(views[|views| - 1], token), last), TimedOut)
    decreases |views|
  {
    if |views| > 1 {
      PollTimesOut(views[1..], token, last, now);
    }
  }

  /** A caller alone at a free lock acquires it with any positive timeout. */
  lemma LoneCallerAcquires(token: string, timeout: int, now: int)
    requires timeout > 0
    ensures Acquire(LockState([], 0), token, timeout, now) == (LockState([token], now), Acquired)
  {
    assert Joined(LockState([], 0), token, now) == [token];
  }

  /** While another process holds a fresh lock, a second caller waits out
      its timeout and then leaves the queue as it found it. */
  lemma SecondCallerTimesOut(holder: string, token: string, timeout: int, last: int, now: int)
    requires holder != token && last != 0 && now - last <= MaxKeyhold
    ensures Acquire(LockState([holder], last), token, timeout, now) == (LockState([holder], last), TimedOut)
  {
    assert Joined(LockState([holder], last), token, now) == [holder, token];
    assert Without([holder], token) == [holder];
  }

  /** A holder that kept the lock past `MaxKeyhold` is evicted: the next
      caller empties the queue and acquires at once. */
  lemma StaleHolderIsEvicted(holder: string, token: string, timeout: int, last: int, now: int)
    requires last != 0 && now - last > MaxKeyhold && timeout > 0
    ensures Acquire(LockState([holder], last), token, timeout, now) == (LockState([token], now), Acquired)
  {
    assert Joined(LockState([holder], last), token, now) == [token];
  }

  /** The evicted holder's next look at the queue finds its token gone, so
      a caller polling on it sees `RESULT_LOSTKEY`. */
  lemma EvictedWaiterLosesKey(views: seq<seq<string>>, token: string, last: int, now: int)
    requires |views| > 1 && token !in views[0]
    ensures Poll(views, token, last, now).1 == LostKey
  {
  }

  /** Releasing the lock one holds returns `True` and hands it to the
      next waiter in line: the queue behind the holder, in its order, minus
      any further copies of the token. */
  lemma ReleaseHandsOver(token: string, rest: seq<string>, last: int)
    ensures Release(LockState([token] + rest, last), token) == (LockState(Without(rest, token), last), true)
    ensures token !in rest ==> Release(LockState([token] + rest, last), token) == (LockState(rest, last), true)
  {
    WithoutConcat([token], rest, token);
    WithoutSingle(token, token);
  }

  /** A waiter behind the holder gets `False` from `release`, and the
      holder keeps the lock. */
  lemma ReleaseByWaiterIsRefused(holder: string, token: string, rest: seq<string>, last: int)
    requires holder != token
    ensures var r := Release(LockState([holder] + rest, last), token);
            && !r.1 && |r.0.queue| > 0 && r.0.queue[0] == holder
  {
    WithoutConcat([holder], rest, token);
    WithoutSingle(holder, token);
  }
}

=== FILE: outcomes.dfy ===
/** Failure-compatible result types shared by every layer of the model.
    An `Error` names the Python exception the original code would raise. */
module Outcomes {

  datatype Option<+T> = None | Some(value: T)

  /** The exceptions the modelled code lets escape. */
  datatype Error =
    | WrongType     // the store's WRONGTYPE reply: a command applied to a key of another kind
    | KeyMissing    // Python `KeyError`
    | BadArgument   // Python `TypeError`
    | NotAnInteger  // Python `ValueError` from `int(...)`, or the store's "not an integer or out of range" reply
    | Overflow      // the store's "increment or decrement would overflow" reply

  datatype Result<+T> = Ok(value: T) | Err(error: Error) {

    predicate IsFailure() {
      Err?
    }

    function PropagateFailure<U>(): Result<U>
      requires Err?
    {
      Err(error)
    }

    function Extract(): T
      requires Ok?
    {
      value
    }
  }
}

=== FILE: pickleddict.dfy ===
/** `RedisPickledDict`: a whole dictionary kept as one snapshot payload at
    one key. Every write reads the snapshot, changes it and writes it back. */
module PickledDicts {
  import opened Outcomes
  import opened Keys
  import opened Codec
  import opened Store
  import opened Handles

  /** The key of a pickled dict: under its parent's key when it has one.
      It is in escaped form, and for a parent key and a name without
      reserved characters it is the plain path `<parent>.<name>`. */
  function DictKey(parentKey: Option<string>, rawKey: string): (k: string)
    ensures Unreserved(k) && InKey(k) == k
    ensures parentKey.Some? && Unreserved(parentKey.value) && Unreserved(rawKey) ==>
              k == parentKey.value + "." + rawKey
  {
    match parentKey
    case None => InKey(rawKey)
    case Some(pk) =>
      if Unreserved(pk) && Unreserved(rawKey) then
        UnreservedConcat(pk, ".");
        UnreservedConcat(pk + ".", rawKey);
        InKey(pk + "." + rawKey)
      else InKey(pk + "." + rawKey)
  }

  /** `RedisPickledDict.value()`: the snapshot at the key; nothing for a
      missing key or a payload without the snapshot tag. */
  function Snapshot(p: Pickler, st: Store, key: string): (r: Result<Option<Value>>)
    ensures key !in st ==> r == Ok(None)
    ensures key in st && !st[key].val.RStr? ==> r == Err(WrongType)
    ensures Payload(st, key).Some? ==> r == Ok(SnapshotDecode(p, Payload(st, key).value))
  {
    var s :- Get(st, key);
    match s
    case None => Ok(None)
    case Some(text) => Ok(SnapshotDecode(p, text))
  }

  /** `RedisPickledDict.resetValue`: overwrite the snapshot. */
  function ResetValue(p: Pickler, st: Store, key: string, v: Value): (st': Store)
    ensures Payload(st', key).Some? && SnapshotTag <= Payload(st', key).value
    ensures SameElsewhere(st, st', key)
  {
    SetString(st, key, SnapshotEncode(p, v))
  }

  /** `RedisPickledDict.__init__`: a falsy default becomes the empty
      dictionary; the handle takes no `expires`. */
  function NewPickledDict(p: Pickler, st: Store, parentKey: Option<string>, rawKey: string,
                          default: Value, create: bool): (r: Opened)
    ensures var key := DictKey(parentKey, rawKey);
            && (r.coercion == Kept <==> KindOf(st, key) == KString)
            && (r.coercion == Kept ==> r.store == st)
            && (r.coercion == Reinitialized <==> KindOf(st, key) != KString && create)
            && (r.coercion == Discarded ==> key !in r.store)
            && SameElsewhere(st, r.store, key)
  {
    var key := DictKey(parentKey, rawKey);
    var initial := if Truthy(default) then default else DictValue(map[]);
    ConstructScalarWith(st, key, TypeOk(PickledDictHandle, st, key), SnapshotEncode(p, initial), create, 0)
  }

  /** `RedisPickledDict.update`: merge into the stored dictionary, or, when
      the snapshot is not a dictionary, replace it. */
  function Update(p: Pickler, st: Store, key: string, d: map<string, Value>): (r: Result<Store>)
    ensures r.Err? <==> key in st && !st[key].val.RStr?
    ensures r.Ok? ==> SameElsewhere(st, r.value, key)
  {
    var existing :- Snapshot(p, st, key);
    var merged := if existing.Some? && existing.value.DictValue? then existing.value.entries + d else d;
    Ok(ResetValue(p, st, key, DictValue(merged)))
  }

  /** `RedisPickledDict.__setitem__`: the entry goes under the escaped name.
      Assigning into a missing or non-dictionary snapshot is a `TypeError`. */
  function SetItem(p: Pickler, st: Store, key: string, name: string, v: Value): (r: Result<Store>)
    ensures Snapshot(p, st, key).Err? ==> r.Err?
    ensures Snapshot(p, st, key).Ok? ==>
              (r.Ok? <==> Snapshot(p, st, key).value.Some? && Snapshot(p, st, key).value.value.DictValue?)
    ensures r.Ok? ==> SameElsewhere(st, r.value, key)
    ensures RoundTrips(p) && r.Ok? ==>
              Snapshot(p, r.value, key)
                == Ok(Some(DictValue(Snapshot(p, st, key).value.value.entries[InKey(name) := v])))
  {
    var current :- Snapshot(p, st, key);
    if current.None? || !current.value.DictValue? then Err(BadArgument)
    else
      var w := DictValue(current.value.entries[InKey(name) := v]);
      SnapshotRoundTripUnder(p, w);
      Ok(ResetValue(p, st, key, w))
  }

  /** The lookup shared by both readings of `__getitem__`: entry `entry` of
      the stored dictionary. */
  function Lookup(p: Pickler, st: Store, key: string, entry: string): (r: Result<Value>)
    ensures r.Ok? <==> Snapshot(p, st, key).Ok? && Snapshot(p, st, key).value.Some?
                       && Snapshot(p, st, key).value.value.DictValue?
                       && entry in Snapshot(p, st, key).value.value.entries
    ensures r.Ok? ==> r.value == Snapshot(p, st, key).value.value.entries[entry]
  {
    var current :- Snapshot(p, st, key);
    if current.None? || !current.value.DictValue? then Err(BadArgument)
    else if entry !in current.value.entries then Err(KeyMissing)
    else Ok(current.value.entries[entry])
  }

  /** `RedisPickledDict.__getitem__` as written: the name is unescaped, not
      escaped, before the lookup, so an entry whose name has a reserved
      character is stored under one key and looked up under another. */
  function GetItemAsWritten(p: Pickler, st: Store, key: string, name: string): (r: Result<Value>)
    ensures '%' !in name ==> r == Lookup(p, st, key, name)
    ensures Unreserved(name) && '%' !in name ==> r == GetItem(p, st, key, name)
  {
    Lookup(p, st, key, OutKey(name))
  }

  /** `__getitem__` corrected to escape the name the way `__setitem__` does:
      it finds exactly the entries stored under the escaped name. */
  function GetItem(p: Pickler, st: Store, key: string, name: string): (r: Result<Value>)
    ensures r.Ok? <==> Snapshot(p, st, key).Ok? && Snapshot(p, st, key).value.Some?
                       && Snapshot(p, st, key).value.value.DictValue?
                       && InKey(name) in Snapshot(p, st, key).value.value.entries
    ensures Unreserved(name) ==> r == Lookup(p, st, key, name)
  {
    Lookup(p, st, key, InKey(name))
  }

  // ---------------------------------------------------------------- properties

  /** The snapshot reads back what was written, whatever the value. */
  lemma ResetReadsBack(p: Pickler, st: Store, key: string, v: Value)
    requires RoundTrips(p)
    ensures Snapshot(p, ResetValue(p, st, key, v), key) == Ok(Some(v))
  {
    SnapshotRoundTrip(p, v);
  }

  /** A fresh pickled dict with `create` over a missing key holds the
      default, or the empty dictionary when the default is falsy. */
  lemma NewPickledDictHoldsDefault(p: Pickler, st: Store, parentKey: Option<string>, rawKey: string, default: Value)
    requires RoundTrips(p) && DictKey(parentKey, rawKey) !in st
    ensures var r := NewPickledDict(p, st, parentKey, rawKey, default, true);
            Snapshot(p, r.store, DictKey(parentKey, rawKey)) ==
              Ok(Some(if Truthy(default) then default else DictValue(map[])))
  {
    SnapshotRoundTrip(p, if Truthy(default) then default else DictValue(map[]));
  }

  /** `update` merges into a stored dictionary, the new entries winning. */
  lemma UpdateMerges(p: Pickler, st: Store, key: string, m: map<string, Value>, d: map<string, Value>)
    requires RoundTrips(p) && Snapshot(p, st, key) == Ok(Some(DictValue(m)))
    ensures Update(p, st, key, d).Ok?
    ensures Snapshot(p, Update(p, st, key, d).value, key) == Ok(Some(DictValue(m + d)))
  {
    SnapshotRoundTrip(p, DictValue(m + d));
  }

  /** With the corrected lookup, an entry reads back under the name it was
      written with, and the other entries are untouched. */
  lemma GetAfterSet(p: Pickler, st: Store, key: string, name: string, other: string, v: Value)
    requires RoundTrips(p) && SetItem(p, st, key, name, v).Ok?
    ensures GetItem(p, SetItem(p, st, key, name, v).value, key, name) == Ok(v)
    ensures InKey(other) != InKey(name) ==>
              GetItem(p, SetItem(p, st, key, name, v).value, key, other) == GetItem(p, st, key, other)
  {
    var m := Snapshot(p, st, key).value.value.entries;
    SnapshotRoundTrip(p, DictValue(m[InKey(name) := v]));
  }

  /** As written, the entry `"a b"` written into an empty pickled dict
      cannot be read back: it is stored as `"a%20b"` and looked up as `"a b"`. */
  lemma SetThenGetFailsAsWritten(p: Pickler, st: Store, key: string, v: Value)
    requires RoundTrips(p) && Payload(st, key) == Some(SnapshotEncode(p, DictValue(map[])))
    ensures SetItem(p, st, key, "a b", v).Ok?
    ensures GetItemAsWritten(p, SetItem(p, st, key, "a b", v).value, key, "a b") == Err(KeyMissing)
    ensures GetItem(p, SetItem(p, st, key, "a b", v).value, key, "a b") == Ok(v)
  {
    SnapshotRoundTrip(p, DictValue(map[]));
    var name := "a b";
    SpacedNameMoves();
    var entries := map[InKey(name) := v];
    assert map[][InKey(name) := v] == entries;
    var st1 := ResetValue(p, st, key, DictValue(entries));
    assert SetItem(p, st, key, name, v) == Ok(st1);
    ResetReadsBack(p, st, key, DictValue(entries));
    assert OutKey(name) !in entries;
  }

  /** The name `"a b"` is unchanged by `outKey` but changed by `inKey`. */
  lemma SpacedNameMoves()
    ensures OutKey("a b") == "a b" && InKey("a b") != "a b"
  {
    var name := "a b";
    OutKeyWithoutPercent(name);
    InKeyUnreserved(name);
    assert name[1] in Reserved;
  }
}

=== FILE: sets.dfy ===
/** `RedisSet`: a handle on a remote set whose members are codec payloads.
    Every mutation refreshes the client-tracked expiration. */
module Sets {
  import opened Outcomes
  import opened Keys
  import opened Codec
  import opened Store
  import opened Expiration
  import opened Handles

  /** `RedisSet.add`: SADD of the payload, then the refresh; replies 1 when
      the payload was new. */
  function Add(p: Pickler, st: Store, h: Iterable, v: Value, now: int): (r: Result<Step<nat>>)
    ensures r.Err? <==> !SetOrAbsent(st, h.key)
    ensures r.Ok? ==> SetOrAbsent(r.value.store, h.key) && r.value.handle.key == h.key
    ensures r.Ok? ==> (r.value.out == 1 <==> Encode(p, v) !in SetMembers(st, h.key))
    ensures r.Ok? && Live(h.tracker, now) ==>
              && Live(r.value.handle.tracker, now)
              && SetMembers(r.value.store, h.key) == SetMembers(st, h.key) + {Encode(p, v)}
    ensures r.Ok? && !Live(h.tracker, now) ==>
              h.key !in r.value.store && r.value.handle.tracker.time == 0
    ensures r.Ok? ==> SameElsewhere(st, r.value.store, h.key)
  {
    var added :- SAdd(st, h.key, Encode(p, v));
    var t := HandleExpiration(added.store, h, now);
    Ok(Step(t.store, t.handle, added.out))
  }

  /** `RedisSet.remove`: SREM of the payload, then the refresh; replies 1
      when the payload was a member. */
  function Remove(p: Pickler, st: Store, h: Iterable, v: Value, now: int): (r: Result<Step<nat>>)
    ensures r.Err? <==> !SetOrAbsent(st, h.key)
    ensures r.Ok? ==> SetOrAbsent(r.value.store, h.key) && r.value.handle.key == h.key
    ensures r.Ok? ==> (r.value.out == 1 <==> Encode(p, v) in SetMembers(st, h.key))
    ensures r.Ok? && Live(h.tracker, now) ==>
              SetMembers(r.value.store, h.key) == SetMembers(st, h.key) - {Encode(p, v)}
    ensures r.Ok? ==> SameElsewhere(st, r.value.store, h.key)
  {
    var removed :- SRem(st, h.key, Encode(p, v));
    var t := HandleExpiration(removed.store, h, now);
    Ok(Step(t.store, t.handle, removed.out))
  }

  /** `RedisSet.ismember`: a read; no refresh. */
  function IsMember(p: Pickler, st: Store, key: string, v: Value): (r: Result<bool>)
    ensures r.Err? <==> !SetOrAbsent(st, key)
    ensures r.Ok? ==> (r.value <==> Encode(p, v) in SetMembers(st, key))
  {
    SIsMember(st, key, Encode(p, v))
  }

  /** The loop of `RedisSet.resetValue`: one `add` per value, in the
      iteration order of the Python set, which is a parameter here. */
  function AddEach(p: Pickler, st: Store, h: Iterable, xs: seq<Value>, now: int): (r: Tracked)
    requires SetOrAbsent(st, h.key)
    ensures SetOrAbsent(r.store, h.key) && r.handle.key == h.key
    ensures Live(h.tracker, now) ==>
              && Live(r.handle.tracker, now)
              && SetMembers(r.store, h.key) == SetMembers(st, h.key) + EncodedSet(p, xs)
    ensures |xs| > 0 ==> Live(r.handle.tracker, now)
    ensures SameElsewhere(st, r.store, h.key)
    decreases |xs|
  {
    if |xs| == 0 then Tracked(st, h)
    else
      var s := Add(p, st, h, xs[0], now).value;
      assert Live(s.handle.tracker, now);
      var r := AddEach(p, s.store, s.handle, xs[1..], now);
      assert EncodedSet(p, xs) == {Encode(p, xs[0])} + EncodedSet(p, xs[1..]);
      SameElsewhereChain(st, s.store, r.store, h.key);
      r
  }

  /** `RedisSet.resetValue`: delete the key, add every value, refresh.
      While the tracked expiration has time left, the members are exactly
      the payloads of the values. */
  function Reset(p: Pickler, st: Store, h: Iterable, xs: seq<Value>, now: int): (r: Tracked)
    ensures SetOrAbsent(r.store, h.key) && r.handle.key == h.key
    ensures Live(h.tracker, now) ==> Live(r.handle.tracker, now) && SetMembers(r.store, h.key) == EncodedSet(p, xs)
    ensures SameElsewhere(st, r.store, h.key)
  {
    var t := AddEach(p, Delete(st, h.key), h, xs, now);
    RefreshAfterAddEach(p, st, h, xs, now);
    HandleExpiration(t.store, t.handle, now)
  }

  /** The facts about `Reset`, on the terms of its body. */
  lemma RefreshAfterAddEach(p: Pickler, st: Store, h: Iterable, xs: seq<Value>, now: int)
    ensures var t := AddEach(p, Delete(st, h.key), h, xs, now);
            var r := HandleExpiration(t.store, t.handle, now);
            && SetOrAbsent(r.store, h.key) && r.handle.key == h.key
            && (Live(h.tracker, now) ==> Live(r.handle.tracker, now) && SetMembers(r.store, h.key) == EncodedSet(p, xs))
            && SameElsewhere(st, r.store, h.key)
  {
    var t := AddEach(p, Delete(st, h.key), h, xs, now);
    assert SetMembers(Delete(st, h.key), h.key) == {};
    RefreshKeepsContents(t.store, t.handle, now);
    SameElsewhereChain(st, Delete(st, h.key), t.store, h.key);
    SameElsewhereChain(st, t.store, HandleExpiration(t.store, t.handle, now).store, h.key);
  }

  /** `RedisSet.__init__`: as for lists, an empty default turns creation off. */
  function NewSet(p: Pickler, st: Store, rawKey: string, default: seq<Value>, create: bool,
                  expires: int, now: int): (r: Constructed)
    ensures r.handle.key == InKey(rawKey)
    ensures r.coercion == Kept <==> TypeOk(SetHandle, st, InKey(rawKey))
    ensures r.coercion == Kept && expires == 0 ==> r.store == st
    ensures SetOrAbsent(r.store, InKey(rawKey)) || r.coercion == Kept
    ensures SameElsewhere(st, r.store, InKey(rawKey))
  {
    var create' := create && |default| > 0;
    var h := Iterable(InKey(rawKey), StartTracker(st, rawKey, create', now));
    var o := Open(st, SetHandle, h.key, create');
    var t := if o.coercion == Reinitialized then Reset(p, o.store, h, default, now)
             else Tracked(o.store, h);
    var st' := if expires != 0 then Expire(t.store, h.key, expires) else t.store;
    SameElsewhereChain(st, o.store, t.store, h.key);
    SameElsewhereChain(st, t.store, st', h.key);
    Constructed(st', t.handle, o.coercion)
  }

  // ---------------------------------------------------------------- properties

  /** Adding the same value twice stores it once: the first add replies 1
      exactly when the payload was new, the second replies 0, and the set
      gains the one payload, as long as the tracked expiration has not fired
      by the second add. */
  lemma AddTwiceStoresOnce(p: Pickler, st: Store, h: Iterable, x: Value, t1: int, t2: int)
    requires SetOrAbsent(st, h.key)
    requires t1 <= t2 && Live(h.tracker, t2)
    ensures Add(p, st, h, x, t1).Ok?
    ensures var s1 := Add(p, st, h, x, t1).value;
            var m := SetMembers(st, h.key);
            && Add(p, s1.store, s1.handle, x, t2).Ok?
            && var s2 := Add(p, s1.store, s1.handle, x, t2).value;
               && (s1.out == 1 <==> Encode(p, x) !in m) && s2.out == 0
               && SetMembers(s2.store, h.key) == m + {Encode(p, x)}
               && |SetMembers(s2.store, h.key)| == |m| + (if Encode(p, x) in m then 0 else 1)
  {
    var added := SAdd(st, h.key, Encode(p, x)).value;
    RefreshStaysLive(added.store, h, t1, t2);
    var m := SetMembers(st, h.key);
    if Encode(p, x) !in m {
      assert |m + {Encode(p, x)}| == |m| + 1;
    } else {
      assert m + {Encode(p, x)} == m;
    }
  }

  /** Reset stores exactly the payloads of the values while the tracked
      expiration has time left. */
  lemma ResetStoresMembers(p: Pickler, st: Store, h: Iterable, xs: seq<Value>, now: int)
    requires Live(h.tracker, now)
    ensures SetMembers(Reset(p, st, h, xs, now).store, h.key) == EncodedSet(p, xs)
  {
    var t := AddEach(p, Delete(st, h.key), h, xs, now);
    assert SetMembers(t.store, h.key) == {} + EncodedSet(p, xs);
  }

  /** After a reset, a faithful value is a member exactly when it was one
      of the values. */
  lemma ResetThenIsMember(p: Pickler, st: Store, h: Iterable, xs: seq<Value>, v: Value, now: int)
    requires RoundTrips(p) && Live(h.tracker, now)
    requires Faithful(v) && forall i :: 0 <= i < |xs| ==> Faithful(xs[i])
    ensures IsMember(p, Reset(p, st, h, xs, now).store, h.key, v) == Ok(v in xs)
  {
    ResetStoresMembers(p, st, h, xs, now);
    if Encode(p, v) in EncodedSet(p, xs) {
      var i :| 0 <= i < |xs| && Encode(p, xs[i]) == Encode(p, v);
      EncodeInjective(p, xs[i], v);
    }
    if v in xs {
      var i :| 0 <= i < |xs| && xs[i] == v;
      assert Encode(p, xs[i]) in EncodedSet(p, xs);
    }
  }

  /** A set handle with an empty default never creates its key. */
  lemma EmptyDefaultNeverCreates(p: Pickler, st: Store, rawKey: string, create: bool, expires: int, now: int)
    ensures var r := NewSet(p, st, rawKey, [], create, expires, now);
            && r.coercion != Reinitialized
            && (InKey(rawKey) !in st ==> InKey(rawKey) !in r.store)
  {
  }
}

=== FILE: sortedsets.dfy ===
/** `RedisSortedSet`: a handle on a remote sorted set whose members are
    codec payloads. Scores are integers here (Redis keeps floats). */
module SortedSets {
  import opened Outcomes
  import opened Keys
  import opened Codec
  import opened Store
  import opened Expiration
  import opened Handles

  /** `RedisSortedSet.add(value, score=None)`: a falsy score (None or 0) is
      replaced by the current cardinality, so the value goes after every
      member added the same way; then ZADD and the refresh. */
  function Add(p: Pickler, st: Store, h: Iterable, v: Value, score: Option<int>, now: int): (r: Result<Step<nat>>)
    ensures r.Err? <==> !ZSetOrAbsent(st, h.key)
    ensures r.Ok? ==> ZSetOrAbsent(r.value.store, h.key) && r.value.handle.key == h.key
    ensures r.Ok? ==> (r.value.out == 1 <==> Encode(p, v) !in ZScores(st, h.key))
    ensures r.Ok? && Live(h.tracker, now) ==>
              && Live(r.value.handle.tracker, now)
              && ZScores(r.value.store, h.key).Keys == ZScores(st, h.key).Keys + {Encode(p, v)}
              && (forall m :: m in ZScores(st, h.key) && m != Encode(p, v) ==>
                    ZScores(r.value.store, h.key)[m] == ZScores(st, h.key)[m])
    ensures r.Ok? && Live(h.tracker, now) && (score.None? || score == Some(0)) ==>
              ZScores(r.value.store, h.key)[Encode(p, v)] == |ZScores(st, h.key).Keys|
    ensures r.Ok? && Live(h.tracker, now) && score.Some? && score.value != 0 ==>
              ZScores(r.value.store, h.key)[Encode(p, v)] == score.value
    ensures r.Ok? ==> SameElsewhere(st, r.value.store, h.key)
  {
    if !ZSetOrAbsent(st, h.key) then Err(WrongType)
    else
      var s := if score.None? || score.value == 0 then ZCard(st, h.key).value else score.value;
      var added := ZAdd(st, h.key, Encode(p, v), s).value;
      var t := HandleExpiration(added.store, h, now);
      ScoredAdd(st, h, Encode(p, v), s, now);
      Ok(Step(t.store, t.handle, added.out))
  }

  /** ZADD of member `m` with score `s` followed by the refresh. */
  lemma ScoredAdd(st: Store, h: Iterable, m: string, s: int, now: int)
    requires ZSetOrAbsent(st, h.key)
    ensures var added := ZAdd(st, h.key, m, s).value;
            var r := HandleExpiration(added.store, h, now);
            var zs := ZScores(st, h.key);
            && ZSetOrAbsent(r.store, h.key) && r.handle.key == h.key
            && (added.out == 1 <==> m !in zs)
            && SameElsewhere(st, r.store, h.key)
            && (Live(h.tracker, now) ==>
                  && Live(r.handle.tracker, now)
                  && ZScores(r.store, h.key).Keys == zs.Keys + {m}
                  && ZScores(r.store, h.key)[m] == s
                  && forall k :: k in zs && k != m ==> ZScores(r.store, h.key)[k] == zs[k])
  {
    var added := ZAdd(st, h.key, m, s).value;
    RefreshKeepsScores(added.store, h, now);
    SameElsewhereChain(st, added.store, HandleExpiration(added.store, h, now).store, h.key);
  }

  /** A refresh keeps the key a sorted set, and one that does not fire
      keeps its scores. */
  lemma RefreshKeepsScores(st: Store, h: Iterable, now: int)
    requires ZSetOrAbsent(st, h.key)
    ensures var r := HandleExpiration(st, h, now);
            && ZSetOrAbsent(r.store, h.key)
            && SameElsewhere(st, r.store, h.key)
            && (Live(h.tracker, now) ==> Live(r.handle.tracker, now) && ZScores(r.store, h.key) == ZScores(st, h.key))
  {
    RefreshKeepsContents(st, h, now);
  }

  /** The loop of `RedisSortedSet.resetValue`: one `add` with the default
      score per value, in the iteration order of the Python collection. */
  function AddEach(p: Pickler, st: Store, h: Iterable, xs: seq<Value>, now: int): (r: Tracked)
    requires ZSetOrAbsent(st, h.key)
    ensures ZSetOrAbsent(r.store, h.key) && r.handle.key == h.key
    ensures Live(h.tracker, now) ==>
              && Live(r.handle.tracker, now)
              && ZScores(r.store, h.key).Keys == ZScores(st, h.key).Keys + EncodedSet(p, xs)
    ensures |xs| > 0 ==> Live(r.handle.tracker, now)
    ensures SameElsewhere(st, r.store, h.key)
    decreases |xs|
  {
    if |xs| == 0 then Tracked(st, h)
    else
      var s := Add(p, st, h, xs[0], None, now).value;
      var r := AddEach(p, s.store, s.handle, xs[1..], now);
      AddEachStep(p, st, h, xs, s, r, now);
      r
  }

  /** One step of `AddEach`: the first `add` followed by the others. */
  lemma AddEachStep(p: Pickler, st: Store, h: Iterable, xs: seq<Value>, s: Step<nat>, r: Tracked, now: int)
    requires ZSetOrAbsent(st, h.key) && ZSetOrAbsent(s.store, h.key) && |xs| > 0
    requires Live(h.tracker, now) ==>
               ZScores(s.store, h.key).Keys == ZScores(st, h.key).Keys + {Encode(p, xs[0])}
    requires SameElsewhere(st, s.store, h.key) && Live(s.handle.tracker, now)
    requires ZSetOrAbsent(r.store, h.key) && r.handle.key == h.key && Live(r.handle.tracker, now)
    requires Live(s.handle.tracker, now) ==>
               ZScores(r.store, h.key).Keys == ZScores(s.store, h.key).Keys + EncodedSet(p, xs[1..])
    requires SameElsewhere(s.store, r.store, h.key)
    ensures Live(h.tracker, now) ==>
              ZScores(r.store, h.key).Keys == ZScores(st, h.key).Keys + EncodedSet(p, xs)
    ensures SameElsewhere(st, r.store, h.key)
  {
    assert EncodedSet(p, xs) == {Encode(p, xs[0])} + EncodedSet(p, xs[1..]);
    SameElsewhereChain(st, s.store, r.store, h.key);
  }

  /** `RedisSortedSet.resetValue`: delete, add every value, refresh, and
      re-apply the tracked time when there is one. */
  function Reset(p: Pickler, st: Store, h: Iterable, xs: seq<Value>, now: int): (r: Tracked)
    ensures ZSetOrAbsent(r.store, h.key) && r.handle.key == h.key
    ensures SameElsewhere(st, r.store, h.key)
  {
    var t := AddEach(p, Delete(st, h.key), h, xs, now);
    var u := HandleExpiration(t.store, t.handle, now);
    var r := if u.handle.tracker.time != 0 then ExpireHandle(u.store, u.handle, u.handle.tracker.time, now)
             else u;
    SameElsewhereChain(st, Delete(st, h.key), t.store, h.key);
    SameElsewhereChain(st, t.store, u.store, h.key);
    SameElsewhereChain(st, u.store, r.store, h.key);
    r
  }

  /** `RedisSortedSet.__init__` is `RedisIterable.__init__`: unlike lists
      and sets, an empty default does not switch creation off. */
  function NewSortedSet(p: Pickler, st: Store, rawKey: string, default: seq<Value>, create: bool,
                        expires: int, now: int): (r: Constructed)
    ensures r.handle.key == InKey(rawKey)
    ensures r.coercion == Kept <==> TypeOk(SortedSetHandle, st, InKey(rawKey))
    ensures r.coercion == Kept && expires == 0 ==> r.store == st
    ensures ZSetOrAbsent(r.store, InKey(rawKey)) || r.coercion == Kept
    ensures r.coercion == Reinitialized <==> create && !TypeOk(SortedSetHandle, st, InKey(rawKey))
    ensures SameElsewhere(st, r.store, InKey(rawKey))
  {
    var h := Iterable(InKey(rawKey), StartTracker(st, rawKey, create, now));
    var o := Open(st, SortedSetHandle, h.key, create);
    var t := if o.coercion == Reinitialized then Reset(p, o.store, h, default, now)
             else Tracked(o.store, h);
    var st' := if expires != 0 then Expire(t.store, h.key, expires) else t.store;
    SameElsewhereChain(st, o.store, t.store, h.key);
    SameElsewhereChain(st, t.store, st', h.key);
    Constructed(st', t.handle, o.coercion)
  }

  // ---------------------------------------------------------------- properties

  /** Scores that are exactly the ranks 0 .. n-1, one per member. */
  predicate Ranked(zs: map<string, int>) {
    && (forall m :: m in zs ==> 0 <= zs[m] < |zs.Keys|)
    && (forall m, n :: m in zs && n in zs && m != n ==> zs[m] != zs[n])
  }

  lemma AddKeyCount(zs: map<string, int>, m: string, s: int)
    requires m !in zs
    ensures zs[m := s].Keys == zs.Keys + {m}
    ensures |zs[m := s].Keys| == |zs.Keys| + 1
  {
    assert zs[m := s].Keys == zs.Keys + {m};
  }

  /** Adding a new value with the default score keeps the scores a ranking
      and puts the value last, after every existing member. */
  lemma DefaultScoreRanksLast(p: Pickler, st: Store, h: Iterable, v: Value, now: int)
    requires ZSetOrAbsent(st, h.key) && Live(h.tracker, now)
    requires Ranked(ZScores(st, h.key)) && Encode(p, v) !in ZScores(st, h.key)
    ensures Add(p, st, h, v, None, now).Ok?
    ensures var zs' := ZScores(Add(p, st, h, v, None, now).value.store, h.key);
            && Ranked(zs')
            && forall m :: m in zs' && m != Encode(p, v) ==> zs'[m] < zs'[Encode(p, v)]
  {
    AddDefaultScores(p, st, h, v, now);
    RankedExtend(ZScores(st, h.key), Encode(p, v));
  }

  /** Giving a new member the current cardinality as its score keeps a
      ranking a ranking, with the new member last. */
  lemma RankedExtend(zs: map<string, int>, m: string)
    requires Ranked(zs) && m !in zs
    ensures var zs' := zs[m := |zs.Keys|];
            && Ranked(zs')
            && forall k :: k in zs' && k != m ==> zs'[k] < zs'[m]
  {
    AddKeyCount(zs, m, |zs.Keys|);
  }

  /** One default-score add, as a change of the score map: the value's
      payload gets the current cardinality; the handle stays live. */
  lemma AddDefaultScores(p: Pickler, st: Store, h: Iterable, v: Value, now: int)
    requires ZSetOrAbsent(st, h.key) && Live(h.tracker, now)
    ensures Add(p, st, h, v, None, now).Ok?
    ensures var s := Add(p, st, h, v, None, now).value;
            var zs := ZScores(st, h.key);
            && s.handle.key == h.key
            && Live(s.handle.tracker, now)
            && ZSetOrAbsent(s.store, h.key)
            && ZScores(s.store, h.key) == zs[Encode(p, v) := |zs.Keys|]
  {
    var zs := ZScores(st, h.key);
    var zs1 := ZScores(Add(p, st, h, v, None, now).value.store, h.key);
    assert zs1.Keys == zs[Encode(p, v) := |zs.Keys|].Keys;
    assert zs1 == zs[Encode(p, v) := |zs.Keys|];
  }

  /** The scores after default-score adds of the payloads `ms`, in order. */
  function DefaultAdds(zs: map<string, int>, ms: seq<string>): map<string, int>
    decreases |ms|
  {
    if |ms| == 0 then zs else DefaultAdds(zs[ms[0] := |zs.Keys|], ms[1..])
  }

  /** The reset loop changes the scores exactly as `DefaultAdds` says. */
  lemma {:induction false} AddEachScores(p: Pickler, st: Store, h: Iterable, xs: seq<Value>, now: int)
    requires ZSetOrAbsent(st, h.key) && Live(h.tracker, now)
    ensures ZScores(AddEach(p, st, h, xs, now).store, h.key) == DefaultAdds(ZScores(st, h.key), EncodeAll(p, xs))
    decreases |xs|
  {
    if |xs| > 0 {
      AddDefaultScores(p, st, h, xs[0], now);
      var s := Add(p, st, h, xs[0], None, now).value;
      AddEachScores(p, s.store, s.handle, xs[1..], now);
      assert EncodeAll(p, xs)[1..] == EncodeAll(p, xs[1..]);
    }
  }

  /** Default-score adds of distinct new payloads number them on from the
      current cardinality and leave the old scores alone. */
  lemma {:induction false} DefaultAddsNumber(zs: map<string, int>, ms: seq<string>)
    requires forall i, j :: 0 <= i < j < |ms| ==> ms[i] != ms[j]
    requires forall i :: 0 <= i < |ms| ==> ms[i] !in zs
    ensures var zs' := DefaultAdds(zs, ms);
            && (forall m :: m in zs' <==> m in zs || m in ms)
            && (forall m :: m in zs ==> zs'[m] == zs[m])
            && (forall i :: 0 <= i < |ms| ==> zs'[ms[i]] == |zs.Keys| + i)
            && |zs'.Keys| == |zs.Keys| + |ms|
    decreases |ms|
  {
    if |ms| > 0 {
      var zs1 := zs[ms[0] := |zs.Keys|];
      AddKeyCount(zs, ms[0], |zs.Keys|);
      var rest := ms[1..];
      forall i, j | 0 <= i < j < |rest|
        ensures rest[i] != rest[j]
      {
        assert rest[i] == ms[i + 1] && rest[j] == ms[j + 1];
      }
      forall i | 0 <= i < |rest|
        ensures rest[i] !in zs1
      {
        assert rest[i] == ms[i + 1];
      }
      DefaultAddsNumber(zs1, rest);
      var zs' := DefaultAdds(zs, ms);
      assert zs' == DefaultAdds(zs1, rest);
      forall m
        ensures m in zs' <==> m in zs || m in ms
      {
        assert m in ms <==> m == ms[0] || m in rest by {
          assert ms == [ms[0]] + rest;
        }
      }
      forall i | 0 <= i < |ms|
        ensures zs'[ms[i]] == |zs.Keys| + i
      {
        if i > 0 {
          assert ms[i] == rest[i - 1];
        }
      }
    }
  }

  /** While the tracker has time left, the scores after a reset are those
      of default-score adds of the payloads into an empty sorted set. */
  lemma ResetScores(p: Pickler, st: Store, h: Iterable, xs: seq<Value>, now: int)
    requires Live(h.tracker, now)
    ensures ZScores(Reset(p, st, h, xs, now).store, h.key) == DefaultAdds(map[], EncodeAll(p, xs))
  {
    var st0 := Delete(st, h.key);
    AddEachScores(p, st0, h, xs, now);
    var t := AddEach(p, st0, h, xs, now);
    RefreshKeepsContents(t.store, t.handle, now);
    var u := HandleExpiration(t.store, t.handle, now);
    assert ZScores(u.store, h.key) == ZScores(t.store, h.key);
  }

  /** Default-score adds of distinct payloads into an empty sorted set
      rank them in order. */
  lemma DefaultAddsRank(ms: seq<string>)
    requires forall i, j :: 0 <= i < j < |ms| ==> ms[i] != ms[j]
    ensures var zs := DefaultAdds(map[], ms);
            && (forall m :: m in zs <==> m in ms)
            && (forall i :: 0 <= i < |ms| ==> zs[ms[i]] == i)
            && Ranked(zs)
  {
    DefaultAddsNumber(map[], ms);
    var zs := DefaultAdds(map[], ms);
    forall m | m in zs
      ensures 0 <= zs[m] < |zs.Keys|
    {
      var i :| 0 <= i < |ms| && ms[i] == m;
    }
    forall m, n | m in zs && n in zs && m != n
      ensures zs[m] != zs[n]
    {
      var i :| 0 <= i < |ms| && ms[i] == m;
      var j :| 0 <= j < |ms| && ms[j] == n;
    }
  }

  /** `resetValue` ranks the values in iteration order: the i-th value gets
      score i, and nothing else is a member. */
  lemma ResetRanksInOrder(p: Pickler, st: Store, h: Iterable, xs: seq<Value>, now: int)
    requires Live(h.tracker, now) && DistinctPayloads(p, xs)
    ensures var zs := ZScores(Reset(p, st, h, xs, now).store, h.key);
            && (forall m :: m in zs <==> m in EncodeAll(p, xs))
            && (forall i :: 0 <= i < |xs| ==> zs[Encode(p, xs[i])] == i)
            && Ranked(zs)
  {
    ResetScores(p, st, h, xs, now);
    DefaultAddsRank(EncodeAll(p, xs));
  }
}

=== FILE: store.dfy ===
/** The remote store, abstracted: a map from key to a typed value with a
    time-to-live, and the commands the client issues, with the store's usual
    semantics (a command on a key of another kind is refused with WRONGTYPE;
    a list, set, sorted set or hash that becomes empty ceases to exist;
    EXPIRE with a non-positive time deletes the key). The store here does
    not count time down on its own: a TTL is only the last value set. */
module Store {
  import opened Outcomes
  import opened Text

  /** What the TYPE command reports. */
  datatype Kind = KNone | KString | KList | KSet | KZSet | KHash

  datatype RemoteValue =
    | RStr(s: string)
    | RList(items: seq<string>)
    | RSet(members: set<string>)
    | RZSet(scores: map<string, int>)
    | RHash(fields: map<string, string>)

  /** A stored value; `ttl == 0` means the key does not expire. */
  datatype Entry = Entry(val: RemoteValue, ttl: nat)

  type Store = map<string, Entry>

  /** A command's new store and its reply. */
  datatype Reply<T> = Reply(store: Store, out: T)

  function KindOf(st: Store, key: string): (k: Kind)
    ensures k == KNone <==> key !in st
    ensures k == KString <==> key in st && st[key].val.RStr?
    ensures k == KList <==> key in st && st[key].val.RList?
  {
    if key !in st then KNone
    else match st[key].val
      case RStr(_) => KString
      case RList(_) => KList
      case RSet(_) => KSet
      case RZSet(_) => KZSet
      case RHash(_) => KHash
  }

  /** Two stores agree on every key but `key`. */
  ghost predicate SameElsewhere(st: Store, st': Store, key: string) {
    (forall k :: k != key && k in st ==> k in st' && st'[k] == st[k])
    && (forall k :: k != key && k in st' ==> k in st)
  }

  lemma SameElsewhereChain(a: Store, b: Store, c: Store, key: string)
    requires SameElsewhere(a, b, key) && SameElsewhere(b, c, key)
    ensures SameElsewhere(a, c, key)
  {
  }

  // ---------------------------------------------------------------- generic keys

  function Delete(st: Store, key: string): (st': Store)
    ensures key !in st' && SameElsewhere(st, st', key)
  {
    st - {key}
  }

  /** EXPIRE: no effect on a missing key; a non-positive time deletes it. */
  function Expire(st: Store, key: string, seconds: int): (st': Store)
    ensures key !in st ==> st' == st
    ensures key in st && seconds <= 0 ==> st' == Delete(st, key)
    ensures key in st && seconds > 0 ==> key in st' && st'[key] == st[key].(ttl := seconds)
    ensures SameElsewhere(st, st', key)
  {
    if key !in st then st
    else if seconds <= 0 then st - {key}
    else st[key := st[key].(ttl := seconds)]
  }

  /** TTL as the client library reports it: the remaining seconds, or 0
      (the client's `None`) for a missing or persistent key. */
  function Ttl(st: Store, key: string): nat {
    if key in st then st[key].ttl else 0
  }

  // ---------------------------------------------------------------- strings

  /** GET: the string at `key`, nothing when the key is missing. */
  function Get(st: Store, key: string): (r: Result<Option<string>>)
    ensures r.Err? <==> key in st && !st[key].val.RStr?
    ensures r == Ok(None) <==> key !in st
  {
    if key !in st then Ok(None)
    else if st[key].val.RStr? then Ok(Some(st[key].val.s))
    else Err(WrongType)
  }

  /** SET: overwrite whatever is at `key` with a string, clearing its TTL. */
  function SetString(st: Store, key: string, s: string): (st': Store)
    ensures key in st' && st'[key] == Entry(RStr(s), 0)
    ensures SameElsewhere(st, st', key)
  {
    st[key := Entry(RStr(s), 0)]
  }

  /** INCRBY: a missing key counts as 0; the TTL is kept. The increment is
      checked first, then the key's kind, then its text, which must read as
      a signed 64-bit integer; a sum outside that range is refused. */
  function IncrBy(st: Store, key: string, amount: int): (r: Result<Reply<int>>)
    ensures r.Ok? ==> key in r.value.store && r.value.store[key].val == RStr(IntToDecimal(r.value.out))
    ensures r.Ok? ==> InInt64(r.value.out)
    ensures r.Ok? ==> SameElsewhere(st, r.value.store, key)
    ensures !InInt64(amount) ==> r == Err(NotAnInteger)
    ensures key !in st ==> (r.Ok? <==> InInt64(amount)) && (r.Ok? ==> r.value.out == amount)
    ensures key in st && !st[key].val.RStr? && InInt64(amount) ==> r == Err(WrongType)
    ensures key in st && st[key].val.RStr? && InInt64(amount) ==>
              var s := st[key].val.s;
              && (!(IsIntegerLiteral(s) && InInt64(ParseInteger(s))) ==> r == Err(NotAnInteger))
              && (IsIntegerLiteral(s) && InInt64(ParseInteger(s)) ==>
                    && (r.Ok? <==> InInt64(ParseInteger(s) + amount))
                    && (r.Err? ==> r.error == Overflow)
                    && (r.Ok? ==> r.value.out == ParseInteger(s) + amount))
  {
    if !InInt64(amount) then Err(NotAnInteger)
    else if key !in st then Ok(Reply(st[key := Entry(RStr(IntToDecimal(amount)), 0)], amount))
    else match st[key].val
      case RStr(s) =>
        if IsIntegerLiteral(s) && InInt64(ParseInteger(s)) then
          var n := ParseInteger(s) + amount;
          if InInt64(n) then Ok(Reply(st[key := st[key].(val := RStr(IntToDecimal(n)))], n))
          else Err(Overflow)
        else Err(NotAnInteger)
      case _ => Err(WrongType)
  }

  // ---------------------------------------------------------------- lists

  predicate ListOrAbsent(st: Store, key: string) {
    key !in st || st[key].val.RList?
  }

  /** LRANGE 0 -1 on a list key: its items, head first. */
  function ListItems(st: Store, key: string): seq<string>
    requires ListOrAbsent(st, key)
  {
    if key in st then st[key].val.items else []
  }

  /** Store `items` at `key` as a list, keeping the TTL; an empty list deletes the key. */
  function PutList(st: Store, key: string, items: seq<string>): (st': Store)
    requires ListOrAbsent(st, key)
    ensures ListOrAbsent(st', key) && ListItems(st', key) == items
    ensures key in st' <==> |items| > 0
    ensures key in st && |items| > 0 ==> st'[key].ttl == st[key].ttl
    ensures SameElsewhere(st, st', key)
  {
    if |items| == 0 then st - {key}
    else if key in st then st[key := st[key].(val := RList(items))]
    else st[key := Entry(RList(items), 0)]
  }

  /** `xs` without any occurrence of `x`, the others in their order. */
  function Without(xs: seq<string>, x: string): (r: seq<string>)
    ensures x !in r
    ensures |r| <= |xs|
    ensures x !in xs ==> r == xs
    ensures forall y :: y != x ==> multiset(r)[y] == multiset(xs)[y]
    decreases |xs|
  {
    if |xs| == 0 then []
    else
      assert xs == [xs[0]] + xs[1..];
      if xs[0] == x then Without(xs[1..], x) else [xs[0]] + Without(xs[1..], x)
  }

  /** Removing an item from a concatenation removes it from both halves,
      so what is kept stays in its original order. */
  lemma {:induction false} WithoutConcat(a: seq<string>, b: seq<string>, x: string)
    ensures Without(a + b, x) == Without(a, x) + Without(b, x)
    decreases |a|
  {
    if |a| == 0 {
      assert a + b == b;
    } else {
      WithoutConcat(a[1..], b, x);
      assert (a + b)[1..] == a[1..] + b;
      assert (a + b)[0] == a[0];
      if a[0] != x {
        assert [a[0]] + (Without(a[1..], x) + Without(b, x)) == ([a[0]] + Without(a[1..], x)) + Without(b, x);
      }
    }
  }

  /** `Without` at every cut of the list: the items kept before the cut
      come before the items kept after it. */
  lemma WithoutAtEveryCut(xs: seq<string>, x: string)
    ensures forall k :: 0 <= k <= |xs| ==> Without(xs, x) == Without(xs[..k], x) + Without(xs[k..], x)
  {
    forall k | 0 <= k <= |xs|
      ensures Without(xs, x) == Without(xs[..k], x) + Without(xs[k..], x)
    {
      assert xs == xs[..k] + xs[k..];
      WithoutConcat(xs[..k], xs[k..], x);
    }
  }

  /** A one-item list loses its item exactly when it is the one removed. */
  lemma WithoutSingle(y: string, x: string)
    ensures Without([y], x) == if y == x then [] else [y]
  {
    assert [y][1..] == [];
  }

  /** RPUSH: append at the tail; replies with the new length. */
  function RPush(st: Store, key: string, s: string): (r: Result<Reply<nat>>)
    ensures r.Err? <==> !ListOrAbsent(st, key)
    ensures r.Ok? ==> ListOrAbsent(r.value.store, key)
                      && ListItems(r.value.store, key) == ListItems(st, key) + [s]
                      && r.value.out == |ListItems(st, key)| + 1
                      && SameElsewhere(st, r.value.store, key)
  {
    if ListOrAbsent(st, key) then
      var n: nat := |ListItems(st, key)| + 1;
      Ok(Reply(PutList(st, key, ListItems(st, key) + [s]), n))
    else Err(WrongType)
  }

  /** LPOP: take the head; nothing when the list is empty or missing. */
  function LPop(st: Store, key: string): (r: Result<Reply<Option<string>>>)
    ensures r.Err? <==> !ListOrAbsent(st, key)
    ensures r.Ok? && |ListItems(st, key)| == 0 ==> r.value == Reply(st, None)
    ensures r.Ok? && |ListItems(st, key)| > 0 ==>
              && r.value.out == Some(ListItems(st, key)[0])
              && ListOrAbsent(r.value.store, key)
              && ListItems(r.value.store, key) == ListItems(st, key)[1..]
              && SameElsewhere(st, r.value.store, key)
  {
    if !ListOrAbsent(st, key) then Err(WrongType)
    else
      var items := ListItems(st, key);
      if |items| == 0 then Ok(Reply(st, None))
      else Ok(Reply(PutList(st, key, items[1..]), Some(items[0])))
  }

  /** LREM with count 0: remove every occurrence; replies with how many went. */
  function LRem(st: Store, key: string, s: string): (r: Result<Reply<nat>>)
    ensures r.Err? <==> !ListOrAbsent(st, key)
    ensures r.Ok? ==> ListOrAbsent(r.value.store, key)
                      && ListItems(r.value.store, key) == Without(ListItems(st, key), s)
                      && r.value.out == multiset(ListItems(st, key))[s]
                      && SameElsewhere(st, r.value.store, key)
  {
    if !ListOrAbsent(st, key) then Err(WrongType)
    else
      var items := ListItems(st, key);
      var rest := Without(items, s);
      CountRemoved(items, s);
      var n: nat := |items| - |rest|;
      Ok(Reply(PutList(st, key, rest), n))
  }

  lemma {:induction false} CountRemoved(xs: seq<string>, x: string)
    ensures |xs| - |Without(xs, x)| == multiset(xs)[x]
    decreases |xs|
  {
    if |xs| > 0 {
      CountRemoved(xs[1..], x);
      assert xs == [xs[0]] + xs[1..];
    }
  }

  // ---------------------------------------------------------------- sets

  predicate SetOrAbsent(st: Store, key: string) {
    key !in st || st[key].val.RSet?
  }

  function SetMembers(st: Store, key: string): set<string>
    requires SetOrAbsent(st, key)
  {
    if key in st then st[key].val.members else {}
  }

  function PutSet(st: Store, key: string, members: set<string>): (st': Store)
    requires SetOrAbsent(st, key)
    ensures SetOrAbsent(st', key) && SetMembers(st', key) == members
    ensures key in st' <==> members != {}
    ensures key in st && members != {} ==> st'[key].ttl == st[key].ttl
    ensures SameElsewhere(st, st', key)
  {
    if members == {} then st - {key}
    else if key in st then st[key := st[key].(val := RSet(members))]
    else st[key := Entry(RSet(members), 0)]
  }

  /** SADD: replies 1 when `m` is new, 0 when it was already a member. */
  function SAdd(st: Store, key: string, m: string): (r: Result<Reply<nat>>)
    ensures r.Err? <==> !SetOrAbsent(st, key)
    ensures r.Ok? ==> SetOrAbsent(r.value.store, key)
                      && SetMembers(r.value.store, key) == SetMembers(st, key) + {m}
                      && (r.value.out == 1 <==> m !in SetMembers(st, key))
                      && SameElsewhere(st, r.value.store, key)
  {
    if !SetOrAbsent(st, key) then Err(WrongType)
    else
      var ms := SetMembers(st, key);
      Ok(Reply(PutSet(st, key, ms + {m}), if m in ms then 0 else 1))
  }

  /** SREM: replies 1 when `m` was a member. */
  function SRem(st: Store, key: string, m: string): (r: Result<Reply<nat>>)
    ensures r.Err? <==> !SetOrAbsent(st, key)
    ensures r.Ok? ==> SetOrAbsent(r.value.store, key)
                      && SetMembers(r.value.store, key) == SetMembers(st, key) - {m}
                      && (r.value.out == 1 <==> m in SetMembers(st, key))
                      && SameElsewhere(st, r.value.store, key)
  {
    if !SetOrAbsent(st, key) then Err(WrongType)
    else
      var ms := SetMembers(st, key);
      Ok(Reply(PutSet(st, key, ms - {m}), if m in ms then 1 else 0))
  }

  function SIsMember(st: Store, key: string, m: string): (r: Result<bool>)
    ensures r.Err? <==> !SetOrAbsent(st, key)
    ensures r.Ok? ==> (r.value <==> m in SetMembers(st, key))
  {
    if !SetOrAbsent(st, key) then Err(WrongType) else Ok(m in SetMembers(st, key))
  }

  // ---------------------------------------------------------------- sorted sets

  predicate ZSetOrAbsent(st: Store, key: string) {
    key !in st || st[key].val.RZSet?
  }

  function ZScores(st: Store, key: string): map<string, int>
    requires ZSetOrAbsent(st, key)
  {
    if key in st then st[key].val.scores else map[]
  }

  /** ZCARD: the number of members. */
  function ZCard(st: Store, key: string): (r: Result<nat>)
    ensures r.Err? <==> !ZSetOrAbsent(st, key)
    ensures r.Ok? ==> r.value == |ZScores(st, key).Keys|
  {
    if !ZSetOrAbsent(st, key) then Err(WrongType) else Ok(|ZScores(st, key).Keys|)
  }

  /** ZADD: set the score of `m`; replies 1 when `m` is new. */
  function ZAdd(st: Store, key: string, m: string, score: int): (r: Result<Reply<nat>>)
    ensures r.Err? <==> !ZSetOrAbsent(st, key)
    ensures r.Ok? ==> ZSetOrAbsent(r.value.store, key)
                      && ZScores(r.value.store, key) == ZScores(st, key)[m := score]
                      && (r.value.out == 1 <==> m !in ZScores(st, key))
                      && SameElsewhere(st, r.value.store, key)
  {
    if !ZSetOrAbsent(st, key) then Err(WrongType)
    else
      var zs := ZScores(st, key);
      var st' := if key in st then st[key := st[key].(val := RZSet(zs[m := score]))]
                 else st[key := Entry(RZSet(zs[m := score]), 0)];
      Ok(Reply(st', if m in zs then 0 else 1))
  }

  // ---------------------------------------------------------------- hashes

  predicate HashOrAbsent(st: Store, key: string) {
    key !in st || st[key].val.RHash?
  }

  function HashFields(st: Store, key: string): map<string, string>
    requires HashOrAbsent(st, key)
  {
    if key in st then st[key].val.fields else map[]
  }

  function PutHash(st: Store, key: string, fields: map<string, string>): (st': Store)
    requires HashOrAbsent(st, key)
    ensures HashOrAbsent(st', key) && HashFields(st', key) == fields
    ensures key in st' <==> fields != map[]
    ensures SameElsewhere(st, st', key)
  {
    if fields == map[] then st - {key}
    else if key in st then st[key := st[key].(val := RHash(fields))]
    else st[key := Entry(RHash(fields), 0)]
  }

  function HGet(st: Store, key: string, field: string): (r: Result<Option<string>>)
    ensures r.Err? <==> !HashOrAbsent(st, key)
    ensures r.Ok? ==> (r.value.Some? <==> field in HashFields(st, key))
    ensures r.Ok? && r.value.Some? ==> r.value.value == HashFields(st, key)[field]
  {
    if !HashOrAbsent(st, key) then Err(WrongType)
    else if field in HashFields(st, key) then Ok(Some(HashFields(st, key)[field]))
    else Ok(None)
  }

  /** HSET: replies 1 when the field is new. */
  function HSet(st: Store, key: string, field: string, s: string): (r: Result<Reply<nat>>)
    ensures r.Err? <==> !HashOrAbsent(st, key)
    ensures r.Ok? ==> HashOrAbsent(r.value.store, key)
                      && HashFields(r.value.store, key) == HashFields(st, key)[field := s]
                      && (r.value.out == 1 <==> field !in HashFields(st, key))
                      && SameElsewhere(st, r.value.store, key)
  {
    if !HashOrAbsent(st, key) then Err(WrongType)
    else
      var fs := HashFields(st, key);
      Ok(Reply(PutHash(st, key, fs[field := s]), if field in fs then 0 else 1))
  }

  /** HDEL: replies 1 when the field existed. */
  function HDel(st: Store, key: string, field: string): (r: Result<Reply<nat>>)
    ensures r.Err? <==> !HashOrAbsent(st, key)
    ensures r.Ok? ==> HashOrAbsent(r.value.store, key)
                      && HashFields(r.value.store, key) == HashFields(st, key) - {field}
                      && (r.value.out == 1 <==> field in HashFields(st, key))
                      && SameElsewhere(st, r.value.store, key)
    ensures r.Ok? && field !in HashFields(st, key) ==> r.value == Reply(st, 0)
  {
    if !HashOrAbsent(st, key) then Err(WrongType)
    else
      var fs := HashFields(st, key);
      if field in fs then Ok(Reply(PutHash(st, key, fs - {field}), 1))
      else Ok(Reply(st, 0))
  }

  function HExists(st: Store, key: string, field: string): (r: Result<bool>)
    ensures r.Err? <==> !HashOrAbsent(st, key)
    ensures r.Ok? ==> (r.value <==> field in HashFields(st, key))
  {
    if !HashOrAbsent(st, key) then Err(WrongType) else Ok(field in HashFields(st, key))
  }
}

=== FILE: text.dfy ===
/** String primitives the client relies on: Python's `str.replace`, the
    `listReplace` helper built from it, `str.isdigit`, and the decimal
    text the store uses for integers. */
module Text {

  /** Python's `s.replace(pat, rep)`: every leftmost, non-overlapping
      occurrence of `pat` is replaced, scanning from the left. */
  function ReplaceAll(s: string, pat: string, rep: string): string
    requires |pat| > 0
    decreases |s|
  {
    if |s| == 0 then ""
    else if pat <= s then rep + ReplaceAll(s[|pat|..], pat, rep)
    else [s[0]] + ReplaceAll(s[1..], pat, rep)
  }

  /** `listReplace(s, pats, reps)`: replace every `pats[i]` by `reps[i]`,
      one pair after the other, in table order. */
  function ListReplace(s: string, pats: seq<string>, reps: seq<string>): string
    requires |pats| == |reps|
    requires forall i :: 0 <= i < |pats| ==> |pats[i]| > 0
    decreases |pats|
  {
    if |pats| == 0 then s
    else ListReplace(ReplaceAll(s, pats[0], reps[0]), pats[1..], reps[1..])
  }

  /** A prefix free of a one-character pattern is copied through unchanged. */
  lemma {:induction false} ReplaceAllSkipsPrefix(a: string, t: string, pat: string, rep: string)
    requires |pat| == 1 && pat[0] !in a
    ensures ReplaceAll(a + t, pat, rep) == a + ReplaceAll(t, pat, rep)
    decreases |a|
  {
    if |a| > 0 {
      assert (a + t)[0] == a[0];
      assert !(pat <= a + t);
      assert (a + t)[1..] == a[1..] + t;
      ReplaceAllSkipsPrefix(a[1..], t, pat, rep);
      assert a == [a[0]] + a[1..];
    } else {
      assert a + t == t;
    }
  }

  /** A three-character `%xx` escape other than the pattern is copied
      through unchanged by a replacement of another `%xx` escape. */
  lemma ReplaceAllSkipsEscape(code: string, t: string, pat: string, rep: string)
    requires |code| == 3 && |pat| == 3 && code != pat
    requires pat[0] == '%' && code[1] != '%' && code[2] != '%'
    ensures ReplaceAll(code + t, pat, rep) == code + ReplaceAll(t, pat, rep)
  {
    var s := code + t;
    assert s[..3] == code;
    assert !(pat <= s);
    assert s[1..] == code[1..] + t;
    var s1 := code[1..] + t;
    assert s1[0] == code[1];
    assert !(pat <= s1);
    assert s1[1..] == code[2..] + t;
    var s2 := code[2..] + t;
    assert s2[0] == code[2];
    assert !(pat <= s2);
    assert s2[1..] == t;
    assert ReplaceAll(s2, pat, rep) == [code[2]] + ReplaceAll(t, pat, rep);
    assert ReplaceAll(s1, pat, rep) == [code[1]] + ReplaceAll(s2, pat, rep);
    assert ReplaceAll(s, pat, rep) == [code[0]] + ReplaceAll(s1, pat, rep);
    assert code == [code[0]] + [code[1]] + [code[2]];
  }

  /** A character that neither the pattern nor the replacement contains
      survives a replacement exactly where it was present before. */
  lemma {:induction false} ReplaceAllKeepsChar(s: string, pat: string, rep: string, c: char)
    requires |pat| > 0 && c !in pat && c !in rep
    ensures c in ReplaceAll(s, pat, rep) <==> c in s
    decreases |s|
  {
    if |s| > 0 {
      if pat <= s {
        assert s == pat + s[|pat|..];
        ReplaceAllKeepsChar(s[|pat|..], pat, rep, c);
      } else {
        assert s == [s[0]] + s[1..];
        ReplaceAllKeepsChar(s[1..], pat, rep, c);
      }
    }
  }

  /** A string without the pattern's first character is left as it is. */
  lemma {:induction false} ReplaceAllWithoutPattern(s: string, pat: string, rep: string)
    requires |pat| > 0 && pat[0] !in s
    ensures ReplaceAll(s, pat, rep) == s
    decreases |s|
  {
    if |s| > 0 {
      assert !(pat <= s);
      ReplaceAllWithoutPattern(s[1..], pat, rep);
      assert s == [s[0]] + s[1..];
    }
  }

  /** A string holding no pattern's first character is left as it is by a
      whole table of replacements. */
  lemma {:induction false} ListReplaceWithoutPatterns(s: string, pats: seq<string>, reps: seq<string>)
    requires |pats| == |reps|
    requires forall i :: 0 <= i < |pats| ==> |pats[i]| > 0 && pats[i][0] !in s
    ensures ListReplace(s, pats, reps) == s
    decreases |pats|
  {
    if |pats| > 0 {
      ReplaceAllWithoutPattern(s, pats[0], reps[0]);
      ListReplaceWithoutPatterns(s, pats[1..], reps[1..]);
    }
  }

  /** The same, for a whole table of replacements. */
  lemma {:induction false} ListReplaceKeepsChar(s: string, pats: seq<string>, reps: seq<string>, c: char)
    requires |pats| == |reps|
    requires forall i :: 0 <= i < |pats| ==> |pats[i]| > 0 && c !in pats[i] && c !in reps[i]
    ensures c in ListReplace(s, pats, reps) <==> c in s
    decreases |pats|
  {
    if |pats| > 0 {
      ReplaceAllKeepsChar(s, pats[0], reps[0], c);
      ListReplaceKeepsChar(ReplaceAll(s, pats[0], reps[0]), pats[1..], reps[1..], c);
    }
  }

  predicate IsDigit(c: char) {
    '0' <= c <= '9'
  }

  /** Python's `str.isdigit()` on ASCII text: non-empty and all digits. */
  predicate IsDigits(s: string) {
    |s| > 0 && forall i :: 0 <= i < |s| ==> IsDigit(s[i])
  }

  function DigitChar(d: nat): (c: char)
    requires d < 10
    ensures IsDigit(c)
  {
    ('0' as int + d) as char
  }

  function DigitValue(c: char): (d: nat)
    requires IsDigit(c)
    ensures d < 10 && DigitChar(d) == c
  {
    c as int - '0' as int
  }

  /** Decimal text of a natural number, as the store renders integers. */
  function NatToDecimal(n: nat): (r: string)
    ensures IsDigits(r)
    decreases n
  {
    if n < 10 then [DigitChar(n)] else NatToDecimal(n / 10) + [DigitChar(n % 10)]
  }

  /** The value of a string of decimal digits. */
  function ParseNat(s: string): nat
    requires forall i :: 0 <= i < |s| ==> IsDigit(s[i])
    decreases |s|
  {
    if |s| == 0 then 0 else ParseNat(s[..|s| - 1]) * 10 + DigitValue(s[|s| - 1])
  }

  lemma {:induction false} ParseNatOfDecimal(n: nat)
    ensures ParseNat(NatToDecimal(n)) == n
    decreases n
  {
    if n >= 10 {
      var s := NatToDecimal(n);
      assert s[..|s| - 1] == NatToDecimal(n / 10);
      ParseNatOfDecimal(n / 10);
    }
  }

  /** Decimal text of any integer, with a leading `-` when negative. */
  function IntToDecimal(i: int): string {
    if i < 0 then "-" + NatToDecimal(-i) else NatToDecimal(i)
  }

  /** Text that Python's `int()` and the store's INCRBY both read as an
      integer: digits, optionally after a minus sign. */
  predicate IsIntegerLiteral(s: string) {
    IsDigits(s) || (|s| >= 2 && s[0] == '-' && IsDigits(s[1..]))
  }

  function ParseInteger(s: string): int
    requires IsIntegerLiteral(s)
  {
    if IsDigits(s) then ParseNat(s) else -(ParseNat(s[1..]) as int)
  }

  /** The signed 64-bit range: Python 2's `int` on a 64-bit build (beyond
      it values are `long`), and the range of the store's integer values. */
  const Int64Min: int := -0x8000_0000_0000_0000
  const Int64Max: int := 0x7fff_ffff_ffff_ffff

  predicate InInt64(i: int) {
    Int64Min <= i <= Int64Max
  }

  /** Every integer's decimal text reads back as that integer. */
  lemma IntegerDecimalRoundTrip(i: int)
    ensures IsIntegerLiteral(IntToDecimal(i))
    ensures ParseInteger(IntToDecimal(i)) == i
  {
    if i < 0 {
      var s := IntToDecimal(i);
      assert s[0] == '-' && !IsDigit(s[0]);
      assert s[1..] == NatToDecimal(-i);
      ParseNatOfDecimal(-i);
    } else {
      ParseNatOfDecimal(i);
    }
  }

  /** The decimal text of an integer is all digits exactly when the integer is not negative. */
  lemma DecimalIsDigitsIffNatural(i: int)
    ensures IsDigits(IntToDecimal(i)) <==> i >= 0
  {
    if i < 0 {
      assert IntToDecimal(i)[0] == '-';
    }
  }
}
